=== FILE: README.md ===
# A verified model of the go-kit add/to-do service core

This project models the core of a small go-kit microservice in Dafny. The
service offers two arithmetic-style operations, `Sum` and `Concat`, a
health check, `Ping`, and five to-do list operations over a document store:
`AddToDo`, `CompleteToDo`, `UnDoToDo`, `DeleteToDo` and `GetAllToDo`. The
model covers four layers, each as pure functions over immutable datatypes:

- `models.dfy` (`Models`): the shared vocabulary. It defines the Go result
  pair `Ret<T>`, the three business sentinel errors and an `Opaque(message)`
  error for everything else, the `ToDoItem` record, the 64-bit `Int64`
  integer, and `ByteLen`, the UTF-8 byte length that Go's `len` returns on a
  string.
- `store.dfy` (`Store`): the persistence port, as a record of total
  functions.
- `service.dfy` (`AddService`): the basic service's business rules.
  `service_middleware.dfy` (`ServiceMiddleware`) models the logging and
  instrumenting decorators and `New`'s decorator order. The decorators'
  side effects are collected in an `Effects` record: log records, the
  `ints` and `chars` counters, and histogram observations.
- `endpoint.dfy` (`AddEndpoint`): the endpoint layer.
  - Requests and responses are tagged unions, so a failed Go type
    assertion is an explicit `Panicked` outcome.
  - Middleware stacks are terms: `Bare(base)` or `Wrap(tag, chain)`.
  - Rate limiters and circuit breakers are decided by an `admit` oracle.
  - The `Set` methods turn an endpoint set back into a service.
- `http_codec.dfy` (`HttpCodec`) and `http_transport.dfy` (`HttpTransport`):
  the HTTP transport.
  - JSON is a parsed `Json` value.
  - The network is a `Peer` function that answers one HTTP request.
  - The server handler routes on the path.
  - The client builds its endpoint chains over HTTP calls.

Several wiring defects in the source are modelled twice, selected by
`Build = AsWritten | Corrected`. `AsWritten` follows the code line by line.
`Corrected` is the evidently intended behaviour, and the end-to-end
properties are proved for it (see Findings).

## Model

| member | source | states |
|---|---|---|
| Models.ByteLenAppend | pkg/addservice/service.go:84 | The UTF-8 byte length of a concatenation is the sum of the byte lengths. |
| Models.ByteLenBounds | pkg/addservice/service.go:84 | A string's byte length lies between its character count and four times that; it is 0 exactly for the empty string. |
| AddService.Sum | pkg/addservice/service.go:71-81 | Two zeroes give `(0, ErrTwoZeroes)`. Otherwise `(0, ErrIntOverflow)` exactly when `a + b` passes the 32-bit bound on the side `b` moves towards; else `(a + b, nil)`. |
| AddService.SumTwoZeroes | pkg/addservice/service.go:72-74 | `Sum(0, 0)` is the two-zeroes error, never the overflow error: that check runs first. |
| AddService.SumGuardIsRange | pkg/addservice/service.go:64-80 | For `b != 0` and a 32-bit `a`, Sum fails with overflow exactly when `a + b` leaves [-2^31, 2^31-1]. On success it returns `a + b`, inside that range. |
| AddService.SumZeroAddend | pkg/addservice/service.go:76-80 | For `b == 0` and `a != 0`, Sum returns `(a, nil)` even when `a` is outside the 32-bit range. |
| AddService.SumBoundaryCases | pkg/addservice/service.go:64-80 | At the boundary, `intMax + 1` with 0 passes, `intMax + 1` overflows and `intMin - 1` overflows. |
| AddService.SumGuardOneSided | pkg/addservice/service.go:76 | The guard lets `-2^32 + 1` through, a result outside the 32-bit range, where SumChecked reports an overflow. |
| AddService.SumChecked | pkg/addservice/service.go:64-81 | The corrected Sum. Two zeroes are refused; any other result outside the 32-bit range is an overflow; a successful result is `a + b` inside the range, and every in-range sum of operands that are not both zero succeeds. Both directions are stated. |
| AddService.SumAgreesOnInt32 | pkg/addservice/service.go:76-80 | On 32-bit operands the written guard and the corrected Sum agree. |
| AddService.Concat | pkg/addservice/service.go:83-88 | Concat is refused with `("", ErrMaxSizeExceeded)` exactly when the two byte lengths total more than 10; otherwise it returns the joined text. |
| AddService.ConcatBounded | pkg/addservice/service.go:83-88 | Concat succeeds iff the joined text is at most 10 bytes. A success returns that text, at most 10 characters long; a refusal returns `""`. |
| AddService.ConcatElevenRefused | pkg/addservice/service.go:84-85 | Eleven ASCII characters are refused. |
| AddService.Ping | pkg/addservice/service.go:90-96 | Ping never returns an error. It reports "up" exactly when the store's ping succeeds and "down" exactly when it fails. |
| AddService.CrudPassThrough | pkg/addservice/service.go:98-139 | On success each CRUD method returns the store's value unchanged. On a store error it returns the zero value (`""` or an empty list) with that same error. |
| AddService.Basic | pkg/addservice/service.go:71-139 | The basic service answers each call with a reply of the result type the interface declares. |
| ServiceMiddleware.Invoke | pkg/addservice/middleware.go:18-177 | Any decorator stack answers each call with a reply of the declared result type. |
| ServiceMiddleware.InvokeTransparent | pkg/addservice/middleware.go:29-177 | Whatever the decorator stack, the reply is the basic service's reply to the same call. |
| ServiceMiddleware.LogCount | pkg/addservice/middleware.go:29-90 | Each logging layer appends exactly one record per call and keeps the earlier log as a prefix. |
| ServiceMiddleware.LoggingOneRecord | pkg/addservice/middleware.go:29-90 | A logging layer returns the inner result. After the inner call it adds one record with the method label, the inputs and the outputs, and changes no metric. |
| ServiceMiddleware.InstrumentingCounters | pkg/addservice/middleware.go:116-177 | An instrumenting layer returns the inner result. Sum adds the returned value to `ints`, which is 0 on error. Concat adds the byte length of the result to `chars`. Ping adds 1 to `chars`. Each CRUD method makes exactly one observation labelled with whether it failed. Nothing is logged. |
| ServiceMiddleware.NewBehaviour | pkg/addservice/service.go:27-36 | The service New builds answers as the basic service and logs exactly one record. The instrumenting layer outside it updates the metrics. |
| ServiceMiddleware.GetAllObservedAsDelete | pkg/addservice/middleware.go:170-177 | As written, GetAllToDo observes into the `getToDo` histogram under the method label "DeleteToDo". |
| ServiceMiddleware.CorrectedObservationLabels | pkg/addservice/middleware.go:134-177 | Corrected, every CRUD observation is labelled with its own method's name, so two different methods never share a label. |
| AddEndpoint.Failed | pkg/addendpoint/set.go:361-454 | A response's `Failed()` is exactly the error that the Set method reads back out of it. |
| AddEndpoint.MakeEndpoint | pkg/addendpoint/set.go:268-335 | An endpoint panics exactly when it downcasts a request of another operation. Otherwise its transport error is nil, and the response carries the service's value and business error. The Ping maker, as written, produces a ConcatResponse. |
| AddEndpoint.ApplyShape | pkg/addendpoint/set.go:42-52 | Applying middleware in order puts the first one innermost: the layers are the tags reversed, and the base is unchanged. |
| AddEndpoint.RunReachesBase | pkg/addendpoint/set.go:41-157 | When no limiter or breaker refuses, a chain behaves exactly as its innermost endpoint. |
| AddEndpoint.RunRefusal | pkg/addendpoint/set.go:41-157 | Otherwise the call is refused with the error of the outermost limiter or breaker that refuses, before the endpoint runs and with no side effect. |
| AddEndpoint.RunRefused | pkg/addendpoint/set.go:45-46 | When a limiter or breaker of the chain refuses, the call fails with the outermost refusing layer's plain, non-sentinel error. Inner layers and the endpoint are not reached, and there is no side effect. |
| AddEndpoint.ServerBreakerAnswersFirst | pkg/addendpoint/set.go:45-46 | In a server chain the breaker wraps the limiter, so a refusing breaker's error is the answer whatever the limiter would decide. |
| AddEndpoint.SetInvoke | pkg/addendpoint/set.go:173-265 | A Set method returns the zero value and the error when the endpoint fails. It panics when the response is of another operation's type. Otherwise it returns the response's value and error. |
| AddEndpoint.RequestCallInverse | pkg/addendpoint/set.go:173-335 | Building a request from a call and reading the call back are inverse, in both directions. |
| AddEndpoint.DirectCall | pkg/addendpoint/set.go:173-335 | A Set method over its bare constructor returns exactly what the service returns, with the same side effects, whenever the constructor produces its own response type. |
| AddEndpoint.DirectRoundTrip | pkg/addendpoint/set.go:173-291 | A Set of bare endpoint constructors returns exactly what the service returns, with the same side effects. This holds for every call when corrected; as written, for every call but Ping, whose downcast always panics. |
| AddEndpoint.ServerChainShape | pkg/addendpoint/set.go:42-52 | Each server chain has, outermost first, instrumenting, logging, optional zipkin, tracing, breaker and limiter over its own endpoint constructor; Sum's limiter has burst 1. |
| AddEndpoint.CorrectedServerWiring | pkg/addendpoint/set.go:39-169 | Corrected, every published server endpoint is its own operation's chain in that order. |
| AddEndpoint.AsWrittenZipkinConcat | pkg/addendpoint/set.go:77-79 | As written, with a zipkin tracer, the published Concat endpoint is the zipkin-wrapped Ping chain over the Ping constructor. |
| AddEndpoint.AsWrittenPingConcat | pkg/addendpoint/set.go:69-82 | As written, the published Ping endpoint never has a zipkin layer. Without zipkin, Concat's chain is its own. |
| AddEndpoint.AsWrittenOthers | pkg/addendpoint/set.go:41-157 | As written, the six other server endpoints are their own operation's chains. |
| AddEndpoint.ZipkinConcatAnswersPing | pkg/addendpoint/set.go:78-195 | As written, with zipkin and open gates, `Set.Concat` answers with the Ping reply whatever its arguments. |
| AddEndpoint.CorrectedServerRoundTrip | pkg/addendpoint/set.go:39-265 | Corrected and with open gates, the server endpoint set answers every call exactly as the service does, with the same side effects, with or without zipkin. |
| HttpCodec.Err2Code | pkg/addtransport/http.go:345-351 | The status is 400 exactly for the three business sentinels and 500 exactly for every other error. |
| HttpCodec.ErrorEncoder | pkg/addtransport/http.go:340-343 | The error response has status `err2code(err)`, never 200, and the body `{"error": message}`. |
| HttpCodec.EnvelopeRoundTrip | pkg/addtransport/http.go:340-363 | Decoding the envelope gives an error with the same message. It is no longer a sentinel, so it classifies as 500. |
| HttpCodec.AsObject | pkg/addtransport/http.go:368-424 | A struct decodes from an object, or from null, which leaves every field zero; any other JSON value is a decode failure. |
| HttpCodec.IntField | pkg/addtransport/http.go:368-372 | An absent or null int field is 0, a number in the 64-bit range is itself, and anything else fails. |
| HttpCodec.StrField | pkg/addtransport/http.go:377-424 | An absent or null string field is `""`, a string is itself, and anything else fails. |
| HttpCodec.BoolField | pkg/addtransport/http.go:393-397 | An absent or null bool field is false, a bool is itself, and anything else fails. |
| HttpCodec.EncodeItems | pkg/addtransport/http.go:558-565 | A to-do list is encoded as one JSON element per item, in order, each being that item's own encoding. |
| HttpCodec.DecodeItems | pkg/addtransport/http.go:536-543 | A JSON array decodes exactly when every element decodes. The list then holds each element's item in order. Otherwise the error is that of the first element that fails. |
| HttpCodec.ItemRoundTrip | pkg/addtransport/http.go:393-397 | Decoding an encoded to-do item, with `task` omitted when empty, gives back the item. |
| HttpCodec.ItemsRoundTrip | pkg/addtransport/http.go:536-565 | Decoding an encoded to-do list gives back the list. |
| HttpCodec.DecodeRequest | pkg/addtransport/http.go:368-431 | Ping and GetAllToDo decode to the empty request whatever the body. The others decode to a request of their own operation, or fail on a body with no leading JSON value. |
| HttpCodec.RequestRoundTrip | pkg/addtransport/http.go:368-431 | The server decodes every client-encoded request back to the same request. |
| HttpCodec.DecodeResponseJson | pkg/addtransport/http.go:438-543 | A decoded response is of the decoder's own operation, with a nil error field. |
| HttpCodec.EncodeHTTPGenericResponse | pkg/addtransport/http.go:558-565 | A response whose `Failed()` is set is written by errorEncoder. Any other response is written as JSON with status 200 and a JSON content type. |
| HttpCodec.DecodeHTTPResponse | pkg/addtransport/http.go:438-543 | Any status but 200 gives an error carrying the status line, whatever the body. A success is a response of the decoder's operation with no error. |
| HttpCodec.ResponseRoundTrip | pkg/addtransport/http.go:438-565 | An error-free response comes back equal. A failed one comes back only as the status-line error that err2code chose. |
| HttpCodec.PingConcatSameWire | pkg/addtransport/http.go:466-473 | A Concat response and a Ping response share one JSON shape, so the Ping decoder reads a ConcatResponse as a PingResponse. |
| HttpCodec.RouteOf | pkg/addtransport/http.go:50-106 | A path is routed only to the operation registered under it. |
| HttpCodec.RoutesInverse | pkg/addtransport/http.go:50-106 | Every operation's path routes back to it, so no two operations share a path. |
| HttpTransport.Serve | pkg/addtransport/http.go:35-107 | An unknown path gets 404. A decode failure goes through errorEncoder with no side effect. Any request that decodes, whatever body it came from, is run through its route's chain and answered from the chain's outcome with the chain's effects. A 200 answer comes from a registered route and has a JSON content type. |
| HttpTransport.Respond | pkg/addtransport/http.go:558-565 | The handler answers exactly when the endpoint does not panic. An endpoint error goes through errorEncoder. A response goes through the generic encoder, and a 200 answer has a JSON content type. |
| HttpTransport.ServeRefused | pkg/addtransport/http.go:340-343 | A routed, well-formed request that its chain's limiter or breaker refuses is answered with status 500, and the service is not reached. |
| HttpTransport.ServeWellFormed | pkg/addtransport/http.go:50-106 | A client-encoded request sent to its operation's path reaches that operation's chain as the same request. |
| HttpTransport.ServeLenientSumBodies | pkg/addtransport/http.go:368-372 | Bodies the client never sends still reach the Sum chain. `{"A": 1}` runs it as Sum(1, 0), and `null` runs it as Sum(0, 0). |
| HttpTransport.Sanitize | pkg/addtransport/http.go:115-117 | The instance gets the "http://" prefix exactly when it does not start with "http"; the result always does. |
| HttpTransport.SanitizeIdempotent | pkg/addtransport/http.go:115-117 | Sanitizing twice is the same as sanitizing once. |
| HttpTransport.CopyURL | pkg/addtransport/http.go:334-338 | The copy has the new path and equals the base in every other field. |
| HttpTransport.ClientCall | pkg/addtransport/http.go:145-317 | The client sends the encoded request with the operation's method to its path under the base URL. A transport error is returned as is, and a non-200 status becomes an error naming the status line. A 200 whose body does not decode gives the decoder's own error. A 200 otherwise yields exactly the decoded response, which is of the operation's own type and has no error. |
| HttpTransport.NewHTTPClient | pkg/addtransport/http.go:113-331 | Client construction succeeds exactly when the sanitized instance parses. A parse error is returned unchanged. On success the client holds the parsed URL and the client endpoint set. |
| HttpTransport.ClientChainShape | pkg/addtransport/http.go:140-163 | A client chain has, outermost first, its breaker, the shared limiter, optional zipkin and tracing, over its own HTTP client. |
| HttpTransport.CrossWiredShape | pkg/addtransport/http.go:220-228 | A cross-wired CRUD block puts its breaker, the shared limiter and its tracing over the chain it is given. |
| HttpTransport.CorrectedClientWiring | pkg/addtransport/http.go:140-331 | Corrected, each client endpoint is its own operation's HTTP client under the standard layers. |
| HttpTransport.AsWrittenClientCrossWiring | pkg/addtransport/http.go:211-317 | As written, the five CRUD client endpoints all call /ping. AddToDo's layers sit over the whole Ping chain, and GetAllToDo wraps the DeleteToDo endpoint. |
| HttpTransport.AsWrittenClientPing | pkg/addtransport/http.go:211-331 | As written, with zipkin, the published Ping client endpoint carries five extra zipkin layers. |
| AddEndpoint.ZeroReplyErr | pkg/addendpoint/set.go:173-265 | A Set method's zero reply carries the endpoint's error and has the declared result type. |
| HttpTransport.AsWrittenClientCrudNeverSucceeds | pkg/addtransport/http.go:209-317 | As written, whatever the remote answers and the gates decide, a client CRUD method either fails with an error or panics on the Ping response. |
| AddEndpoint.CallForOwnOp | pkg/addendpoint/set.go:268-335 | A call's request is accepted by its own operation's endpoint, which calls the service back with the same call. |
| AddEndpoint.ResponseForInverse | pkg/addendpoint/set.go:173-335 | Packing a service reply into its operation's response and reading it back gives the same reply. `Failed()` is the reply's error. |
| HttpTransport.CorrectedServerRun | pkg/addendpoint/set.go:39-335 | Corrected and with open gates, a call's request reaches its own constructor and returns the service's reply in its operation's response. |
| HttpTransport.ServeCorrected | pkg/addtransport/http.go:50-106 | Corrected and with open gates, the server answers a client-encoded request with the encoding of the service's reply and the service's side effects. |
| HttpTransport.ClientOverServer | pkg/addtransport/http.go:113-565 | End to end, corrected on both sides with open gates: a client method returns the service's reply when the service succeeds. When it fails, the client gets the zero value and an error naming only the status line err2code chose. |
| HttpTransport.AsWrittenServerPing | pkg/addendpoint/set.go:69-291 | As written, with open gates, the server answers /ping with the service's Ping text in an error-free ConcatResponse. |
| HttpTransport.AsWrittenClientPingRun | pkg/addtransport/http.go:189-317 | As written, with open gates, the client's Ping endpoint makes exactly one HTTP call to /ping, whatever its extra zipkin layers. |
| HttpTransport.PingCallOverAsWrittenServer | pkg/addtransport/http.go:466-473 | As written, one HTTP Ping call to the server decodes to a PingResponse carrying the service's Ping text and no error. |
| AddEndpoint.SetPingFromRun | pkg/addendpoint/set.go:197-207 | `Set.Ping` returns the text and error of the PingResponse its endpoint returns. |
| HttpTransport.AsWrittenPingOverHttp | pkg/addtransport/http.go:189-207 | As written on both sides, Ping over HTTP still returns the service's reply, because the ConcatResponse has the Ping response's JSON shape. |

## Left out

- The MongoDB store behind the `Store` port is not part of this model; the port is an arbitrary total behaviour, and the request context is dropped.
- Rate limiter and circuit breaker state machines: each limiter and breaker is a tag whose decision comes from the `admit` oracle. Their configuration (rate, burst, name, timeout) is recorded in the tag. A refusal is a plain error carrying the oracle's message, never one of the service's sentinel errors. The decision depends only on the tag, so a limiter or breaker that appears twice in one chain decides the same way at both places. Examples are the shared client limiter on the as-written AddToDo path, and the Ping chain's limiter and breaker under the accumulated zipkin layers. In Go, the outer pass can take the last token so that the inner pass refuses.
- OpenTracing and Zipkin spans, the HTTP-level zipkin server and client options, and the logger backends. They never change a reply. The tracing middleware are tags that always pass calls on.
- Histogram durations (`time.Since`, float64 seconds): an observation records only its histogram and labels.
- JSON text and the byte-level decoder. JSON is a parsed value; the decoder's exact error texts are one `DecodeFailure` error. Case-insensitive key matching in Go's decoder is not modelled; keys match exactly.
- Bytes after the first JSON value, and non-integer numbers. `json.Decoder.Decode` reads only the body's first JSON value, so trailing bytes are ignored. A `JsonBody(j)` stands for any body whose first value is `j`. Fractional numbers have no `Json` form, so a body holding one (even under a key the decoder ignores) falls outside `Body`.
- The `primitive.ObjectID` type of `ToDoItem.ID` and its hex parsing: the id is an opaque string.
- A nil to-do list encodes as `null` in Go and is modelled as an empty list. Both decode to an empty list.
- The server error handler that logs a transport error: it only logs.
- `errorDecoder` is modelled, but no client in the source is configured with it; the client decoders read only the status line.
- Go panics inside the HTTP server: a panicking endpoint yields no response, and a client sees a closed connection.
- URL parsing: a `parse` function parameter.
- Concurrency of request handling, context cancellation and deadlines.
- The `String()` method of `ToDoItem` (debug formatting).
- The endpoint-level `LoggingMiddleware` and `InstrumentingMiddleware` wrapped around every server chain (pkg/addendpoint/set.go:51-52, 65-66 and the matching lines of each block). Their definitions are not part of this model. They are tags that pass every call through. Their log lines and duration observations are not recorded in `Effects`; only the service-level decorators record effects.
- go-kit counters hold float64 values (pkg/addservice/middleware.go:118 adds `float64(v)`). `Effects.ints` and `Effects.chars` are unbounded integers, so float64 rounding of large totals is not modelled.
- Go strings are byte sequences and may hold invalid UTF-8. Strings here are sequences of characters, with `ByteLen` as their UTF-8 length, so a string that is not valid UTF-8 cannot be represented, for example as an input to Concat's length check (pkg/addservice/service.go:84).
- Path cleaning by Go's `ServeMux`: an unclean path such as `//sum` or `/a/../sum` gets a 301 redirect to the clean path. `Serve` answers 404 for every path other than the eight registered ones.
- AddService.Sum: Go `int` is modelled as 64 bits. The guard never wraps at that width, so 64-bit wrap-around is not modelled.

## Findings

| source | as written | input that shows it | evidently intended | confidence | as-written member | corrected member |
|---|---|---|---|---|---|---|
| pkg/addservice/service.go:76 | The overflow guard only tests the bound on the side `b` moves towards. A 64-bit `a` already outside the 32-bit range passes it. | `Sum(-4294967296, 1)` returns `(-4294967295, nil)` | Every result outside [-2^31, 2^31-1] is `ErrIntOverflow` | medium, not executed | AddService.SumGuardOneSided | AddService.SumChecked |
| pkg/addendpoint/set.go:289 | `MakePingEndpoint` returns a `ConcatResponse` | `Set.Ping` over a bare Ping endpoint: the downcast at set.go:203 panics | The Ping endpoint returns a `PingResponse` | high, not executed | AddEndpoint.DirectRoundTrip | AddEndpoint.CorrectedServerRoundTrip |
| pkg/addendpoint/set.go:78 | With a zipkin tracer, the zipkin-wrapped Ping chain is assigned to `concatEndpoint` | `Set.Concat("a", "b")` with zipkin returns the Ping reply ("up" or "down") | Assign it to `pingEndpoint` | high, not executed | AddEndpoint.ZipkinConcatAnswersPing | AddEndpoint.CorrectedServerWiring |
| pkg/addtransport/http.go:211-317 | The CRUD client endpoints trace `pingEndpoint` instead of their own HTTP client, and GetAllToDo's limiter wraps `deleteToDoEndpoint` | The client's `AddToDo(item)` sends GET /ping and panics on the `PingResponse` | Each endpoint wraps its own HTTP client | high, not executed | HttpTransport.AsWrittenClientCrudNeverSucceeds | HttpTransport.ClientOverServer |
| pkg/addservice/middleware.go:172 | GetAllToDo's observation is labelled `method = "DeleteToDo"` | Any `GetAllToDo` call | The label "GetAllToDo" | high, not executed | ServiceMiddleware.GetAllObservedAsDelete | ServiceMiddleware.CorrectedObservationLabels |

=== FILE: endpoint.dfy ===
/** The endpoint layer: every operation is erased into one shape,
    request -> (response, transport error), with the business error carried
    inside the response. Middleware are terms wrapped around a base endpoint,
    so that which base a published endpoint reaches can be computed. */
module AddEndpoint {
  import opened Models
  import opened AddService
  import opened ServiceMiddleware

  datatype Op = SumOp | ConcatOp | PingOp | AddToDoOp | CompleteToDoOp | UnDoToDoOp | DeleteToDoOp | GetAllToDoOp

  /** The typed request values, one variant per request struct. */
  datatype Request =
    | SumRequest(a: Int64, b: Int64)
    | ConcatRequest(x: string, y: string)
    | PingRequest
    | AddToDoRequest(task: ToDoItem)
    | CompleteToDoRequest(taskID: string)
    | UnDoToDoRequest(taskID: string)
    | DeleteToDoRequest(taskID: string)
    | GetAllToDoRequest

  /** The typed response values; every one carries the business error. */
  datatype Response =
    | SumResponse(n: Int64, err: Option<Error>)
    | ConcatResponse(v: string, err: Option<Error>)
    | PingResponse(v: string, err: Option<Error>)
    | AddToDoResponse(taskID: string, err: Option<Error>)
    | CompleteToDoResponse(taskID: string, err: Option<Error>)
    | UnDoToDoResponse(taskID: string, err: Option<Error>)
    | DeleteToDoResponse(taskID: string, err: Option<Error>)
    | GetAllToDoResponse(todos: seq<ToDoItem>, err: Option<Error>)

  /** endpoint.Failer: every response type reports its own error field. */
  function Failed(r: Response): (e: Option<Error>)
    ensures e == ReplyErr(ReplyOf(r))
  {
    r.err
  }

  /** What an endpoint returns when it does not panic: a response, or a
      transport-level error (the response is then ignored by every caller). */
  datatype EpResult = Returned(resp: Response) | Errored(err: Error)

  function RequestOp(r: Request): Op
  {
    match r
    case SumRequest(_, _) => SumOp
    case ConcatRequest(_, _) => ConcatOp
    case PingRequest => PingOp
    case AddToDoRequest(_) => AddToDoOp
    case CompleteToDoRequest(_) => CompleteToDoOp
    case UnDoToDoRequest(_) => UnDoToDoOp
    case DeleteToDoRequest(_) => DeleteToDoOp
    case GetAllToDoRequest => GetAllToDoOp
  }

  function ResponseOp(r: Response): Op
  {
    match r
    case SumResponse(_, _) => SumOp
    case ConcatResponse(_, _) => ConcatOp
    case PingResponse(_, _) => PingOp
    case AddToDoResponse(_, _) => AddToDoOp
    case CompleteToDoResponse(_, _) => CompleteToDoOp
    case UnDoToDoResponse(_, _) => UnDoToDoOp
    case DeleteToDoResponse(_, _) => DeleteToDoOp
    case GetAllToDoResponse(_, _) => GetAllToDoOp
  }

  /** The request a Set method builds for a service call. */
  function RequestOf(c: Call): Request
  {
    match c
    case SumCall(a, b) => SumRequest(a, b)
    case ConcatCall(x, y) => ConcatRequest(x, y)
    case PingCall => PingRequest
    case AddToDoCall(t) => AddToDoRequest(t)
    case CompleteToDoCall(id) => CompleteToDoRequest(id)
    case UnDoToDoCall(id) => UnDoToDoRequest(id)
    case DeleteToDoCall(id) => DeleteToDoRequest(id)
    case GetAllToDoCall => GetAllToDoRequest
  }

  /** The service call an endpoint makes for a request. */
  function CallOf(r: Request): Call
  {
    match r
    case SumRequest(a, b) => SumCall(a, b)
    case ConcatRequest(x, y) => ConcatCall(x, y)
    case PingRequest => PingCall
    case AddToDoRequest(t) => AddToDoCall(t)
    case CompleteToDoRequest(id) => CompleteToDoCall(id)
    case UnDoToDoRequest(id) => UnDoToDoCall(id)
    case DeleteToDoRequest(id) => DeleteToDoCall(id)
    case GetAllToDoRequest => GetAllToDoCall
  }

  function OpOf(c: Call): Op
  {
    RequestOp(RequestOf(c))
  }

  /** The reply shape an operation's response carries. */
  predicate OpFits(op: Op, r: Reply)
  {
    match op
    case SumOp => r.IntReply?
    case GetAllToDoOp => r.ItemsReply?
    case _ => r.TextReply?
  }

  /** Packs a service reply into the response variant of `op`. */
  function ResponseFor(op: Op, r: Reply): Response
    requires OpFits(op, r)
  {
    match op
    case SumOp => SumResponse(r.n.v, r.n.err)
    case ConcatOp => ConcatResponse(r.s.v, r.s.err)
    case PingOp => PingResponse(r.s.v, r.s.err)
    case AddToDoOp => AddToDoResponse(r.s.v, r.s.err)
    case CompleteToDoOp => CompleteToDoResponse(r.s.v, r.s.err)
    case UnDoToDoOp => UnDoToDoResponse(r.s.v, r.s.err)
    case DeleteToDoOp => DeleteToDoResponse(r.s.v, r.s.err)
    case GetAllToDoOp => GetAllToDoResponse(r.items.v, r.items.err)
  }

  /** What a Set method reads back out of a response of the type it expects. */
  function ReplyOf(resp: Response): Reply
  {
    match resp
    case SumResponse(n, e) => IntReply(Ret(n, e))
    case ConcatResponse(v, e) => TextReply(Ret(v, e))
    case PingResponse(v, e) => TextReply(Ret(v, e))
    case AddToDoResponse(id, e) => TextReply(Ret(id, e))
    case CompleteToDoResponse(id, e) => TextReply(Ret(id, e))
    case UnDoToDoResponse(id, e) => TextReply(Ret(id, e))
    case DeleteToDoResponse(id, e) => TextReply(Ret(id, e))
    case GetAllToDoResponse(todos, e) => ItemsReply(Ret(todos, e))
  }

  /** A Set method's result when the endpoint fails: the zero value and the
      transport error. */
  function ZeroReply(c: Call, e: Error): Reply
  {
    match c
    case SumCall(_, _) => IntReply(Ret(0, Some(e)))
    case GetAllToDoCall => ItemsReply(Ret([], Some(e)))
    case _ => TextReply(Ret("", Some(e)))
  }

  /** The Ping and GetAllToDo endpoints ignore their request; the others
      downcast it to their own request type. */
  predicate Accepts(op: Op, req: Request)
  {
    op == PingOp || op == GetAllToDoOp || RequestOp(req) == op
  }

  /** The service call an accepted request leads to. */
  function CallFor(op: Op, req: Request): Call
  {
    if op == PingOp then PingCall
    else if op == GetAllToDoOp then GetAllToDoCall
    else CallOf(req)
  }

  /** The response type an endpoint constructor produces. As written, the Ping
      endpoint produces a ConcatResponse. */
  function MadeResponseOp(op: Op, build: Build): Op
  {
    if op == PingOp && build == AsWritten then ConcatOp else op
  }

  /** Make<Op>Endpoint(svc) applied to one request. */
  function MakeEndpoint(op: Op, build: Build, svc: Service, req: Request, fx: Effects): (out: (Outcome<EpResult>, Effects))
    ensures out.0.Panicked? <==> !Accepts(op, req)
    ensures out.0.Panicked? ==> out.1 == fx
    ensures out.0.Done? ==> out.0.value.Returned?
    ensures out.0.Done? ==> ResponseOp(out.0.value.resp) == MadeResponseOp(op, build)
    ensures out.0.Done? ==> (ReplyOf(out.0.value.resp), out.1) == Invoke(svc, CallFor(op, req), fx)
  {
    if !Accepts(op, req) then (Panicked, fx)
    else
      var c := CallFor(op, req);
      var (r, fx1) := Invoke(svc, c, fx);
      (Done(Returned(ResponseFor(MadeResponseOp(op, build), r))), fx1)
  }

  // ---- Middleware chains ----

  /** Whose state an admission-control middleware keeps. */
  datatype Owner = PerOp(op: Op) | SharedByClient

  /** One endpoint middleware, with the configuration it was built with. The
      limiter rate is in requests per second. */
  datatype Tag =
    | RateLimiter(owner: Owner, perSecond: nat, burst: nat)
    | CircuitBreaker(breakerOf: Op, breakerName: string, timeoutSeconds: nat)
    | ServerTracing(traced: string)
    | ClientTracing(traced: string)
    | ZipkinTracing(traced: string)
    | EndpointLogging(logged: string)
    | EndpointInstrumenting(measured: string)

  /** Rate limiters and breakers may refuse a call; the other middleware
      always pass it on. */
  predicate IsAdmission(t: Tag)
  {
    t.RateLimiter? || t.CircuitBreaker?
  }

  /** The endpoint a chain starts from: the endpoint constructor of an
      operation over the service, or the HTTP client of an operation. */
  datatype Base = Make(op: Op, build: Build) | Remote(op: Op)

  datatype Chain = Bare(base: Base) | Wrap(tag: Tag, inner: Chain)

  /** Middleware of a chain, outermost first. */
  function Layers(c: Chain): seq<Tag>
  {
    match c
    case Bare(_) => []
    case Wrap(t, inner) => [t] + Layers(inner)
  }

  function Innermost(c: Chain): Base
  {
    match c
    case Bare(b) => b
    case Wrap(_, inner) => Innermost(inner)
  }

  /** Applies middleware in the order given, as successive
      `e = mw(e)` statements do: the first one ends up innermost. */
  function Apply(ts: seq<Tag>, c: Chain): Chain
    decreases |ts|
  {
    if ts == [] then c else Apply(ts[1..], Wrap(ts[0], c))
  }

  function Reverse<T>(s: seq<T>): (r: seq<T>)
    ensures |r| == |s|
    ensures forall i :: 0 <= i < |s| ==> r[i] == s[|s| - 1 - i]
  {
    if s == [] then [] else Reverse(s[1..]) + [s[0]]
  }

  lemma {:induction false} ApplyShape(ts: seq<Tag>, c: Chain)
    ensures Layers(Apply(ts, c)) == Reverse(ts) + Layers(c)
    ensures Innermost(Apply(ts, c)) == Innermost(c)
    decreases |ts|
  {
    if ts != [] {
      ApplyShape(ts[1..], Wrap(ts[0], c));
      assert Reverse(ts) == Reverse(ts[1..]) + [ts[0]];
    }
  }

  /** The environment a chain runs in: the service behind the endpoint
      constructors, the behaviour of remote calls, and the decision of each
      admission-control middleware: None lets the call through, Some(msg)
      refuses it with a plain error of that message (the limiter's
      "rate limit exceeded", the breaker's "circuit breaker is open" or
      "too many requests"), never one of the service's sentinel errors. */
  datatype Env = Env(svc: Service, remote: (Op, Request) -> EpResult, admit: Tag -> Option<string>)

  /** Runs a chain on a request: each admission layer may refuse, the other
      layers pass the call through; the base does the work. */
  function Run(c: Chain, env: Env, req: Request, fx: Effects): (out: (Outcome<EpResult>, Effects))
    decreases c
  {
    match c
    case Bare(Make(op, build)) => MakeEndpoint(op, build, env.svc, req, fx)
    case Bare(Remote(op)) => (Done(env.remote(op, req)), fx)
    case Wrap(t, inner) =>
      if IsAdmission(t) && env.admit(t).Some? then (Done(Errored(Opaque(env.admit(t).value))), fx)
      else Run(inner, env, req, fx)
  }

  /** No admission layer of the chain refuses. */
  ghost predicate Admitted(c: Chain, env: Env)
  {
    forall i :: 0 <= i < |Layers(c)| && IsAdmission(Layers(c)[i]) ==> env.admit(Layers(c)[i]) == None
  }

  /** When every admission layer lets the call through, a chain behaves as
      its innermost base. */
  lemma {:induction false} RunReachesBase(c: Chain, env: Env, req: Request, fx: Effects)
    requires Admitted(c, env)
    ensures Run(c, env, req, fx) == Run(Bare(Innermost(c)), env, req, fx)
  {
    match c
    case Bare(_) =>
    case Wrap(t, inner) =>
      assert Layers(c)[0] == t;
      assert forall i :: 0 <= i < |Layers(inner)| ==> Layers(inner)[i] == Layers(c)[i + 1];
      RunReachesBase(inner, env, req, fx);
  }

  /** Otherwise the call is refused with the error of the outermost refusing
      admission layer, before the base runs, with no side effect. */
  lemma {:induction false} RunRefusal(c: Chain, env: Env, req: Request, fx: Effects)
    ensures || Run(c, env, req, fx) == Run(Bare(Innermost(c)), env, req, fx)
            || exists i :: && 0 <= i < |Layers(c)| && IsAdmission(Layers(c)[i])
                           && env.admit(Layers(c)[i]).Some?
                           && (forall j :: 0 <= j < i && IsAdmission(Layers(c)[j]) ==> env.admit(Layers(c)[j]) == None)
                           && Run(c, env, req, fx) == (Done(Errored(Opaque(env.admit(Layers(c)[i]).value))), fx)
  {
    if Admitted(c, env) {
      RunReachesBase(c, env, req, fx);
    } else {
      RunRefused(c, env, req, fx);
    }
  }

  /** Conversely, when some admission layer refuses, the chain refuses with
      the error of the OUTERMOST refusing layer (the inner ones are never
      reached): a plain, non-sentinel error, before the base runs, with no
      side effect. */
  lemma {:induction false} RunRefused(c: Chain, env: Env, req: Request, fx: Effects)
    requires !Admitted(c, env)
    ensures var r := Run(c, env, req, fx);
            && r.1 == fx
            && r.0.Done? && r.0.value.Errored? && r.0.value.err.Opaque?
    ensures exists i :: && 0 <= i < |Layers(c)| && IsAdmission(Layers(c)[i]) && env.admit(Layers(c)[i]).Some?
                        && (forall j :: 0 <= j < i && IsAdmission(Layers(c)[j]) ==> env.admit(Layers(c)[j]) == None)
                        && Run(c, env, req, fx) == (Done(Errored(Opaque(env.admit(Layers(c)[i]).value))), fx)
  {
    match c
    case Bare(_) =>
    case Wrap(t, inner) =>
      assert Layers(c)[0] == t;
      if IsAdmission(t) && env.admit(t).Some? {
        assert Run(c, env, req, fx) == (Done(Errored(Opaque(env.admit(Layers(c)[0]).value))), fx);
      } else {
        var i :| 0 <= i < |Layers(c)| && IsAdmission(Layers(c)[i]) && env.admit(Layers(c)[i]) != None;
        assert i != 0;
        assert Layers(inner)[i - 1] == Layers(c)[i];
        RunRefused(inner, env, req, fx);
        var k :| && 0 <= k < |Layers(inner)| && IsAdmission(Layers(inner)[k]) && env.admit(Layers(inner)[k]).Some?
                 && (forall j :: 0 <= j < k && IsAdmission(Layers(inner)[j]) ==> env.admit(Layers(inner)[j]) == None)
                 && Run(inner, env, req, fx) == (Done(Errored(Opaque(env.admit(Layers(inner)[k]).value))), fx);
        assert Layers(c)[k + 1] == Layers(inner)[k];
        forall j | 0 <= j < k + 1 && IsAdmission(Layers(c)[j])
          ensures env.admit(Layers(c)[j]) == None
        {
          if j > 0 { assert Layers(c)[j] == Layers(inner)[j - 1]; }
        }
      }
  }

  // ---- The endpoint set and its Service methods ----

  datatype EndpointSet = EndpointSet(
    sum: Chain, concat: Chain, ping: Chain, addToDo: Chain,
    completeToDo: Chain, unDoToDo: Chain, deleteToDo: Chain, getAllToDo: Chain)

  function ChainFor(s: EndpointSet, op: Op): Chain
  {
    match op
    case SumOp => s.sum
    case ConcatOp => s.concat
    case PingOp => s.ping
    case AddToDoOp => s.addToDo
    case CompleteToDoOp => s.completeToDo
    case UnDoToDoOp => s.unDoToDo
    case DeleteToDoOp => s.deleteToDo
    case GetAllToDoOp => s.getAllToDo
  }

  /** The Set's Service methods: build the request, call the operation's
      endpoint, return the zero value and the error if the endpoint failed,
      otherwise downcast the response to the operation's own response type
      (panicking on any other) and return its value and business error. */
  function SetInvoke(s: EndpointSet, env: Env, c: Call, fx: Effects): (out: (Outcome<Reply>, Effects))
    ensures out.0.Done? ==> Fits(c, out.0.value)
    ensures var r := Run(ChainFor(s, OpOf(c)), env, RequestOf(c), fx);
            && out.1 == r.1
            && (r.0.Done? && r.0.value.Errored? ==> out.0 == Done(ZeroReply(c, r.0.value.err)))
            && (r.0.Done? && r.0.value.Returned? ==>
                  (out.0.Done? <==> ResponseOp(r.0.value.resp) == OpOf(c)))
            && (r.0.Done? && r.0.value.Returned? && ResponseOp(r.0.value.resp) == OpOf(c) ==>
                  out.0 == Done(ReplyOf(r.0.value.resp)))
            && (r.0.Panicked? ==> out.0.Panicked?)
  {
    var op := OpOf(c);
    var (r, fx1) := Run(ChainFor(s, op), env, RequestOf(c), fx);
    match r
    case Panicked => (Panicked, fx1)
    case Done(Errored(e)) => (Done(ZeroReply(c, e)), fx1)
    case Done(Returned(resp)) =>
      if ResponseOp(resp) == op then (Done(ReplyOf(resp)), fx1) else (Panicked, fx1)
  }

  /** A zero reply carries the error it was made with. */
  lemma ZeroReplyErr(c: Call, e: Error)
    ensures ReplyErr(ZeroReply(c, e)) == Some(e)
    ensures Fits(c, ZeroReply(c, e))
  {
  }

  /** A Set's Ping method returns the text and error of the PingResponse its
      Ping endpoint returns, with the endpoint's effects. */
  lemma SetPingFromRun(eps: EndpointSet, env: Env, v: string, e: Option<Error>, fx: Effects, fx1: Effects)
    requires Run(eps.ping, env, PingRequest, fx) == (Done(Returned(PingResponse(v, e))), fx1)
    ensures SetInvoke(eps, env, PingCall, fx) == (Done(TextReply(Ret(v, e))), fx1)
  {
  }

  /** A Set of bare endpoint constructors, with no middleware. */
  function DirectSet(build: Build): EndpointSet
  {
    EndpointSet(
      Bare(Make(SumOp, build)), Bare(Make(ConcatOp, build)), Bare(Make(PingOp, build)),
      Bare(Make(AddToDoOp, build)), Bare(Make(CompleteToDoOp, build)), Bare(Make(UnDoToDoOp, build)),
      Bare(Make(DeleteToDoOp, build)), Bare(Make(GetAllToDoOp, build)))
  }

  lemma RequestCallInverse(c: Call, r: Request)
    ensures CallOf(RequestOf(c)) == c
    ensures RequestOf(CallOf(r)) == r
    ensures OpOf(c) == RequestOp(RequestOf(c))
  {
  }

  /** A call's request is accepted by its own operation's endpoint, which
      calls the service back with the same call. */
  lemma CallForOwnOp(c: Call)
    ensures Accepts(OpOf(c), RequestOf(c))
    ensures CallFor(OpOf(c), RequestOf(c)) == c
  {
    RequestCallInverse(c, RequestOf(c));
  }

  /** A service reply packed into its operation's response and read back is
      the same reply, and the response's Failed() is the reply's error. */
  lemma ResponseForInverse(c: Call, r: Reply)
    requires Fits(c, r)
    ensures OpFits(OpOf(c), r)
    ensures ResponseOp(ResponseFor(OpOf(c), r)) == OpOf(c)
    ensures ReplyOf(ResponseFor(OpOf(c), r)) == r
    ensures Failed(ResponseFor(OpOf(c), r)) == ReplyErr(r)
  {
  }

  /** One call through a Set of bare endpoint constructors, where the
      constructor produces its own response type. */
  lemma {:induction false} DirectCall(build: Build, env: Env, c: Call, fx: Effects)
    requires !(build == AsWritten && c.PingCall?)
    ensures SetInvoke(DirectSet(build), env, c, fx)
              == (Done(Invoke(env.svc, c, fx).0), Invoke(env.svc, c, fx).1)
  {
    CallForOwnOp(c);
    ResponseForInverse(c, Invoke(env.svc, c, fx).0);
  }

  /** Round trip: a Set built directly from the endpoint constructors returns
      exactly what the service returns, with the same side effects; as
      written this fails for Ping alone, whose downcast always panics. */
  lemma DirectRoundTrip(env: Env, c: Call, fx: Effects)
    ensures !(c.PingCall?) ==> SetInvoke(DirectSet(AsWritten), env, c, fx)
                                 == (Done(Invoke(env.svc, c, fx).0), Invoke(env.svc, c, fx).1)
    ensures SetInvoke(DirectSet(Corrected), env, c, fx)
              == (Done(Invoke(env.svc, c, fx).0), Invoke(env.svc, c, fx).1)
    ensures SetInvoke(DirectSet(AsWritten), env, PingCall, fx).0 == Panicked
  {
    if !c.PingCall? {
      DirectCall(AsWritten, env, c, fx);
    }
    DirectCall(Corrected, env, c, fx);
  }

  // ---- The server-side endpoint set (set.go New) ----

  function OpName(op: Op): string
  {
    match op
    case SumOp => "Sum"
    case ConcatOp => "Concat"
    case PingOp => "Ping"
    case AddToDoOp => "AddToDo"
    case CompleteToDoOp => "CompleteToDo"
    case UnDoToDoOp => "UnDoToDo"
    case DeleteToDoOp => "DeleteToDo"
    case GetAllToDoOp => "GetAllToDo"
  }

  /** The operation name given to the server tracers, spelled as in the source. */
  function ServerTraceName(op: Op): string
  {
    if op == UnDoToDoOp then "UndoToDo" else OpName(op)
  }

  /** Sum is limited to a burst of 1 request, the others to 100, all at one
      request per second; each operation has its own breaker with default
      settings. */
  function ServerAdmission(op: Op): seq<Tag>
  {
    [RateLimiter(PerOp(op), 1, if op == SumOp then 1 else 100), CircuitBreaker(op, "", 0)]
  }

  /** The middleware applied to one operation, innermost first. */
  function ServerTags(op: Op, zipkin: bool): seq<Tag>
  {
    ServerAdmission(op) + [ServerTracing(ServerTraceName(op))]
    + (if zipkin then [ZipkinTracing(ServerTraceName(op))] else [])
    + [EndpointLogging(OpName(op)), EndpointInstrumenting(OpName(op))]
  }

  function ServerChain(op: Op, zipkin: bool, build: Build): Chain
  {
    Apply(ServerTags(op, zipkin), Bare(Make(op, build)))
  }

  /** set.go New. As written, with a zipkin tracer the zipkin-wrapped Ping
      chain is assigned to the Concat variable, so the published Concat
      endpoint is Ping's and the Ping endpoint has no zipkin layer. */
  function NewSet(zipkin: bool, build: Build): EndpointSet
  {
    var pingTraced := Apply(ServerAdmission(PingOp) + [ServerTracing("Ping")], Bare(Make(PingOp, build)));
    var misplaced := zipkin && build == AsWritten;
    EndpointSet(
      ServerChain(SumOp, zipkin, build),
      if misplaced then Wrap(ZipkinTracing("Ping"), pingTraced) else ServerChain(ConcatOp, zipkin, build),
      if build == AsWritten then ServerChain(PingOp, false, build) else ServerChain(PingOp, zipkin, build),
      ServerChain(AddToDoOp, zipkin, build),
      ServerChain(CompleteToDoOp, zipkin, build),
      ServerChain(UnDoToDoOp, zipkin, build),
      ServerChain(DeleteToDoOp, zipkin, build),
      ServerChain(GetAllToDoOp, zipkin, build))
  }

  /** The layers of a server chain, outermost first: instrumenting, logging,
      zipkin when configured, tracing, breaker, limiter. */
  function ServerOrder(op: Op, zipkin: bool): seq<Tag>
  {
    [EndpointInstrumenting(OpName(op)), EndpointLogging(OpName(op))]
    + (if zipkin then [ZipkinTracing(ServerTraceName(op))] else [])
    + [ServerTracing(ServerTraceName(op)), CircuitBreaker(op, "", 0),
       RateLimiter(PerOp(op), 1, if op == SumOp then 1 else 100)]
  }

  lemma ServerChainShape(op: Op, zipkin: bool, build: Build)
    ensures Layers(ServerChain(op, zipkin, build)) == ServerOrder(op, zipkin)
    ensures Innermost(ServerChain(op, zipkin, build)) == Make(op, build)
  {
    ApplyShape(ServerTags(op, zipkin), Bare(Make(op, build)));
    var ts := ServerTags(op, zipkin);
    if zipkin {
      assert Reverse(ts) == ServerOrder(op, zipkin) by {
        ReverseSix(ts);
      }
    } else {
      assert Reverse(ts) == ServerOrder(op, zipkin) by {
        ReverseFive(ts);
      }
    }
  }

  lemma ReverseStep<T>(s: seq<T>)
    requires s != []
    ensures Reverse(s) == Reverse(s[1..]) + [s[0]]
  {
  }

  lemma ReverseThree<T>(s: seq<T>)
    requires |s| == 3
    ensures Reverse(s) == [s[2], s[1], s[0]]
  {
    ReverseStep(s);
    ReverseStep(s[1..]);
    ReverseStep(s[1..][1..]);
    assert s[1..][1..][1..] == [];
  }

  lemma ReverseFour<T>(s: seq<T>)
    requires |s| == 4
    ensures Reverse(s) == [s[3], s[2], s[1], s[0]]
  {
    ReverseStep(s);
    ReverseThree(s[1..]);
  }

  lemma ReverseFive<T>(s: seq<T>)
    requires |s| == 5
    ensures Reverse(s) == [s[4], s[3], s[2], s[1], s[0]]
  {
    ReverseStep(s);
    ReverseStep(s[1..]);
    ReverseThree(s[1..][1..]);
  }

  lemma ReverseSix<T>(s: seq<T>)
    requires |s| == 6
    ensures Reverse(s) == [s[5], s[4], s[3], s[2], s[1], s[0]]
  {
    ReverseStep(s);
    ReverseFive(s[1..]);
  }

  /** Corrected wiring: every published endpoint reaches its own operation's
      constructor through the full stack in the documented order. */
  lemma CorrectedServerWiring(zipkin: bool, op: Op)
    ensures Innermost(ChainFor(NewSet(zipkin, Corrected), op)) == Make(op, Corrected)
    ensures Layers(ChainFor(NewSet(zipkin, Corrected), op)) == ServerOrder(op, zipkin)
  {
    ServerChainShape(op, zipkin, Corrected);
  }

  /** Order matters: a server chain's breaker sits outside its limiter, so
      when the breaker refuses, its error is the answer whatever the limiter
      would have decided, and the limiter is never consulted. */
  lemma ServerBreakerAnswersFirst(op: Op, zipkin: bool, build: Build, env: Env, req: Request, fx: Effects)
    requires env.admit(CircuitBreaker(op, "", 0)).Some?
    ensures Run(ServerChain(op, zipkin, build), env, req, fx)
              == (Done(Errored(Opaque(env.admit(CircuitBreaker(op, "", 0)).value))), fx)
  {
    var c := ServerChain(op, zipkin, build);
    ServerChainShape(op, zipkin, build);
    var b := if zipkin then 4 else 3;
    assert Layers(c)[b] == CircuitBreaker(op, "", 0);
    RunRefused(c, env, req, fx);
    var i :| && 0 <= i < |Layers(c)| && IsAdmission(Layers(c)[i]) && env.admit(Layers(c)[i]).Some?
             && (forall j :: 0 <= j < i && IsAdmission(Layers(c)[j]) ==> env.admit(Layers(c)[j]) == None)
             && Run(c, env, req, fx) == (Done(Errored(Opaque(env.admit(Layers(c)[i]).value))), fx);
    assert i == b;
  }

  /** As written, with a zipkin tracer the published Concat endpoint reaches
      the Ping constructor through zipkin, tracing, breaker and limiter only:
      no logging or instrumenting. */
  lemma AsWrittenZipkinConcat()
    ensures Innermost(NewSet(true, AsWritten).concat) == Make(PingOp, AsWritten)
    ensures Layers(NewSet(true, AsWritten).concat)
              == [ZipkinTracing("Ping"), ServerTracing("Ping"), CircuitBreaker(PingOp, "", 0),
                  RateLimiter(PerOp(PingOp), 1, 100)]
  {
    var ts := ServerAdmission(PingOp) + [ServerTracing("Ping")];
    ApplyShape(ts, Bare(Make(PingOp, AsWritten)));
    ReverseThree(ts);
  }

  /** As written, the published Ping endpoint never has a zipkin layer, and
      without a zipkin tracer Concat is wired to its own constructor. */
  lemma AsWrittenPingConcat(zipkin: bool)
    ensures Layers(NewSet(zipkin, AsWritten).ping) == ServerOrder(PingOp, false)
    ensures Innermost(NewSet(zipkin, AsWritten).ping) == Make(PingOp, AsWritten)
    ensures !zipkin ==> NewSet(zipkin, AsWritten).concat == ServerChain(ConcatOp, false, AsWritten)
  {
    ServerChainShape(PingOp, false, AsWritten);
  }

  /** As written, the six other endpoints are wired as corrected. */
  lemma AsWrittenOthers(zipkin: bool, op: Op)
    requires op != ConcatOp && op != PingOp
    ensures ChainFor(NewSet(zipkin, AsWritten), op) == ServerChain(op, zipkin, AsWritten)
    ensures Innermost(ChainFor(NewSet(zipkin, AsWritten), op)) == Make(op, AsWritten)
  {
    ServerChainShape(op, zipkin, AsWritten);
  }

  /** All admission layers let calls through. */
  ghost predicate OpenGates(env: Env)
  {
    forall t :: env.admit(t) == None
  }

  lemma OpenGatesAdmit(c: Chain, env: Env)
    requires OpenGates(env)
    ensures Admitted(c, env)
  {
  }

  /** Consequence of the misplaced zipkin assignment: with a zipkin tracer,
      Set.Concat over the server endpoints answers with the Ping result
      whatever its arguments. */
  lemma ZipkinConcatAnswersPing(env: Env, x: string, y: string, fx: Effects)
    requires OpenGates(env)
    ensures SetInvoke(NewSet(true, AsWritten), env, ConcatCall(x, y), fx)
              == (Done(Invoke(env.svc, PingCall, fx).0), Invoke(env.svc, PingCall, fx).1)
  {
    var c := NewSet(true, AsWritten).concat;
    AsWrittenZipkinConcat();
    OpenGatesAdmit(c, env);
    RunReachesBase(c, env, ConcatRequest(x, y), fx);
  }

  /** Corrected, the server Set with open gates is a faithful Service: every
      method returns exactly what the service returns, with the same side
      effects, with or without a zipkin tracer. */
  lemma CorrectedServerRoundTrip(zipkin: bool, env: Env, c: Call, fx: Effects)
    requires OpenGates(env)
    ensures SetInvoke(NewSet(zipkin, Corrected), env, c, fx)
              == (Done(Invoke(env.svc, c, fx).0), Invoke(env.svc, c, fx).1)
  {
    var ch := ChainFor(NewSet(zipkin, Corrected), OpOf(c));
    CorrectedServerWiring(zipkin, OpOf(c));
    OpenGatesAdmit(ch, env);
    RunReachesBase(ch, env, RequestOf(c), fx);
    DirectRoundTrip(env, c, fx);
  }
}

=== FILE: http_codec.dfy ===
/** The pure half of the HTTP transport: status classification, the error
    envelope, the JSON shapes of requests and responses and the route table.
    JSON text is abstracted to a parsed value; a decoder reads struct fields
    by key, leaves absent or null fields at their zero value, ignores unknown
    keys and fails on a value of the wrong type. */
module HttpCodec {
  import opened Models
  import opened AddEndpoint

  datatype Json =
    | JNull
    | JBool(b: bool)
    | JInt(i: int)
    | JStr(s: string)
    | JArr(elems: seq<Json>)
    | JObj(fields: map<string, Json>)

  /** A message body as the JSON decoder reads it: `JsonBody(j)` when the
      body's first JSON value is `j` (anything after it is never read);
      otherwise text: a request body with no leading JSON value, or a
      plain-text response such as the mux's 404 page, whose non-200 status
      means no client ever decodes it. */
  datatype Body = JsonBody(json: Json) | TextBody(text: string)

  /** A response as a client sees it: status code, status line, the
      Content-Type header if one was set, and the body. */
  datatype HttpResponse = HttpResponse(code: int, statusLine: string, contentType: Option<string>, body: Body)

  const StatusOK: int := 200
  const StatusBadRequest: int := 400
  const StatusNotFound: int := 404
  const StatusInternalServerError: int := 500

  /** The status line the server writes for the codes it uses. */
  function StatusLine(code: int): string
  {
    if code == StatusOK then "200 OK"
    else if code == StatusBadRequest then "400 Bad Request"
    else if code == StatusNotFound then "404 Not Found"
    else "500 Internal Server Error"
  }

  /** The error every malformed body decodes to; the decoder's exact text is
      not modelled. */
  const DecodeFailure: Error := Opaque("json: cannot unmarshal")

  // ---- Error classification and the error envelope ----

  /** err2code: the three business sentinels are client errors, every other
      error (store, decode, admission control, any re-created error) is a
      server error. */
  function Err2Code(e: Error): (code: int)
    ensures code == StatusBadRequest <==> (e == TwoZeroes || e == MaxSizeExceeded || e == IntOverflow)
    ensures code == StatusInternalServerError <==> e.Opaque?
  {
    match e
    case TwoZeroes => StatusBadRequest
    case MaxSizeExceeded => StatusBadRequest
    case IntOverflow => StatusBadRequest
    case _ => StatusInternalServerError
  }

  function Envelope(msg: string): Json
  {
    JObj(map["error" := JStr(msg)])
  }

  /** errorEncoder: the status from err2code and the message in the
      envelope. No Content-Type is set. */
  function ErrorEncoder(e: Error): (r: HttpResponse)
    ensures r.code == Err2Code(e) && r.code != StatusOK
    ensures r.body == JsonBody(Envelope(Message(e)))
  {
    HttpResponse(Err2Code(e), StatusLine(Err2Code(e)), None, JsonBody(Envelope(Message(e))))
  }

  /** errorDecoder: always yields an error, either the decoding failure or a
      new error carrying the envelope's message. */
  function ErrorDecoder(body: Body): Error
  {
    match body
    case TextBody(_) => DecodeFailure
    case JsonBody(j) =>
      match AsObject(j)
      case Err(e) => e
      case Ok(m) =>
        match StrField(m, "error")
        case Err(e) => e
        case Ok(msg) => Opaque(msg)
  }

  /** The envelope round trip keeps the message but not the error's identity:
      a decoded business error is classified as a server error. */
  lemma EnvelopeRoundTrip(e: Error)
    ensures ErrorDecoder(ErrorEncoder(e).body) == Opaque(Message(e))
    ensures Message(ErrorDecoder(ErrorEncoder(e).body)) == Message(e)
    ensures Err2Code(ErrorDecoder(ErrorEncoder(e).body)) == StatusInternalServerError
  {
  }

  // ---- Field decoding ----

  /** The top-level value a struct is decoded from: an object, or null which
      leaves every field at its zero value. */
  function AsObject(j: Json): (r: Result<map<string, Json>>)
    ensures j.JObj? ==> r == Ok(j.fields)
    ensures j.JNull? ==> r == Ok(map[])
    ensures !j.JObj? && !j.JNull? ==> r == Err(DecodeFailure)
  {
    match j
    case JObj(m) => Ok(m)
    case JNull => Ok(map[])
    case _ => Err(DecodeFailure)
  }

  predicate Absent(m: map<string, Json>, k: string)
  {
    k !in m || m[k] == JNull
  }

  /** An `int` field; a number outside the 64-bit range does not fit. */
  function IntField(m: map<string, Json>, k: string): (r: Result<Int64>)
    ensures Absent(m, k) ==> r == Ok(0)
    ensures k in m && m[k].JInt? && MinInt64 <= m[k].i <= MaxInt64 ==> r == Ok(m[k].i)
    ensures !Absent(m, k) && !(m[k].JInt? && MinInt64 <= m[k].i <= MaxInt64) ==> r == Err(DecodeFailure)
  {
    if Absent(m, k) then Ok(0)
    else if m[k].JInt? && MinInt64 <= m[k].i <= MaxInt64 then Ok(m[k].i)
    else Err(DecodeFailure)
  }

  function StrField(m: map<string, Json>, k: string): (r: Result<string>)
    ensures Absent(m, k) ==> r == Ok("")
    ensures k in m && m[k].JStr? ==> r == Ok(m[k].s)
    ensures !Absent(m, k) && !m[k].JStr? ==> r == Err(DecodeFailure)
  {
    if Absent(m, k) then Ok("")
    else match m[k]
      case JStr(s) => Ok(s)
      case _ => Err(DecodeFailure)
  }

  function BoolField(m: map<string, Json>, k: string): (r: Result<bool>)
    ensures Absent(m, k) ==> r == Ok(false)
    ensures k in m && m[k].JBool? ==> r == Ok(m[k].b)
    ensures !Absent(m, k) && !m[k].JBool? ==> r == Err(DecodeFailure)
  {
    if Absent(m, k) then Ok(false)
    else match m[k]
      case JBool(b) => Ok(b)
      case _ => Err(DecodeFailure)
  }

  // ---- The to-do record ----

  /** A to-do item's JSON: `_id` and `status` always, `task` omitted when empty. */
  function EncodeItem(t: ToDoItem): Json
  {
    var base := map["_id" := JStr(t.id), "status" := JBool(t.status)];
    JObj(if t.task == "" then base else base["task" := JStr(t.task)])
  }

  function DecodeItem(j: Json): Result<ToDoItem>
  {
    var m :- AsObject(j);
    var id :- StrField(m, "_id");
    var task :- StrField(m, "task");
    var status :- BoolField(m, "status");
    Ok(ToDoItem(id, task, status))
  }

  /** A to-do list's JSON array: one element per item, in order. */
  function EncodeItems(ts: seq<ToDoItem>): (r: seq<Json>)
    ensures |r| == |ts|
    ensures forall i :: 0 <= i < |ts| ==> r[i] == EncodeItem(ts[i])
  {
    if ts == [] then [] else [EncodeItem(ts[0])] + EncodeItems(ts[1..])
  }

  /** Decodes an array element by element: it succeeds exactly when every
      element decodes, then holds each element's item in order; otherwise it
      fails with the error of the first element that does not decode. */
  function DecodeItems(js: seq<Json>): (r: Result<seq<ToDoItem>>)
    ensures r.Ok? <==> forall i :: 0 <= i < |js| ==> DecodeItem(js[i]).Ok?
    ensures r.Ok? ==> |r.value| == |js| && forall i :: 0 <= i < |js| ==> Ok(r.value[i]) == DecodeItem(js[i])
    ensures r.Err? ==> exists i :: && 0 <= i < |js| && DecodeItem(js[i]) == Err(r.error)
                                   && forall j :: 0 <= j < i ==> DecodeItem(js[j]).Ok?
  {
    if js == [] then Ok([])
    else
      var t :- DecodeItem(js[0]);
      var rest :- DecodeItems(js[1..]);
      Ok([t] + rest)
  }

  /** A slice field: absent or null is the nil slice, modelled as empty. */
  function ItemsField(m: map<string, Json>, k: string): Result<seq<ToDoItem>>
  {
    if Absent(m, k) then Ok([])
    else match m[k]
      case JArr(js) => DecodeItems(js)
      case _ => Err(DecodeFailure)
  }

  lemma ItemRoundTrip(t: ToDoItem)
    ensures DecodeItem(EncodeItem(t)) == Ok(t)
  {
  }

  lemma {:induction false} ItemsRoundTrip(ts: seq<ToDoItem>)
    ensures DecodeItems(EncodeItems(ts)) == Ok(ts)
  {
    if ts != [] {
      ItemRoundTrip(ts[0]);
      ItemsRoundTrip(ts[1..]);
      assert EncodeItems(ts)[1..] == EncodeItems(ts[1..]);
      assert [ts[0]] + ts[1..] == ts;
    }
  }

  // ---- Requests ----

  /** encodeHTTPGenericRequest: the request struct as JSON. The request
      structs carry no field tags, so their keys are the Go field names. */
  function EncodeRequest(req: Request): Json
  {
    match req
    case SumRequest(a, b) => JObj(map["A" := JInt(a), "B" := JInt(b)])
    case ConcatRequest(x, y) => JObj(map["A" := JStr(x), "B" := JStr(y)])
    case PingRequest => JObj(map[])
    case AddToDoRequest(t) => EncodeItem(t)
    case CompleteToDoRequest(id) => JObj(map["taskID" := JStr(id)])
    case UnDoToDoRequest(id) => JObj(map["taskID" := JStr(id)])
    case DeleteToDoRequest(id) => JObj(map["taskID" := JStr(id)])
    case GetAllToDoRequest => JObj(map[])
  }

  function DecodeStruct(op: Op, j: Json): Result<Request>
    requires op != PingOp && op != GetAllToDoOp
  {
    var m :- AsObject(j);
    match op
    case SumOp =>
      var a :- IntField(m, "A");
      var b :- IntField(m, "B");
      Ok(SumRequest(a, b))
    case ConcatOp =>
      var x :- StrField(m, "A");
      var y :- StrField(m, "B");
      Ok(ConcatRequest(x, y))
    case AddToDoOp =>
      var t :- DecodeItem(j);
      Ok(AddToDoRequest(t))
    case CompleteToDoOp =>
      var id :- StrField(m, "taskID");
      Ok(CompleteToDoRequest(id))
    case UnDoToDoOp =>
      var id :- StrField(m, "taskID");
      Ok(UnDoToDoRequest(id))
    case DeleteToDoOp =>
      var id :- StrField(m, "taskID");
      Ok(DeleteToDoRequest(id))
  }

  /** decodeHTTP<Op>Request: Ping and GetAllToDo never read the body; the
      others decode their request struct from it. */
  function DecodeRequest(op: Op, body: Body): (r: Result<Request>)
    ensures op == PingOp ==> r == Ok(PingRequest)
    ensures op == GetAllToDoOp ==> r == Ok(GetAllToDoRequest)
    ensures r.Ok? ==> RequestOp(r.value) == op
    ensures body.TextBody? && op != PingOp && op != GetAllToDoOp ==> r == Err(DecodeFailure)
  {
    if op == PingOp then Ok(PingRequest)
    else if op == GetAllToDoOp then Ok(GetAllToDoRequest)
    else match body
      case TextBody(_) => Err(DecodeFailure)
      case JsonBody(j) => DecodeStruct(op, j)
  }

  /** What the client encodes, the server decodes back to the same request. */
  lemma RequestRoundTrip(req: Request)
    ensures DecodeRequest(RequestOp(req), JsonBody(EncodeRequest(req))) == Ok(req)
  {
    if req.AddToDoRequest? {
      ItemRoundTrip(req.task);
    }
  }

  // ---- Responses ----

  /** The success JSON of a response; the error field is never encoded. */
  function EncodeResponse(resp: Response): Json
  {
    match resp
    case SumResponse(n, _) => JObj(map["v" := JInt(n)])
    case ConcatResponse(v, _) => JObj(map["v" := JStr(v)])
    case PingResponse(v, _) => JObj(map["v" := JStr(v)])
    case AddToDoResponse(id, _) => JObj(map["taskID" := JStr(id)])
    case CompleteToDoResponse(id, _) => JObj(map["taskID" := JStr(id)])
    case UnDoToDoResponse(id, _) => JObj(map["taskID" := JStr(id)])
    case DeleteToDoResponse(id, _) => JObj(map["taskID" := JStr(id)])
    case GetAllToDoResponse(todos, _) => JObj(map["todos" := JArr(EncodeItems(todos))])
  }

  /** Decodes the response struct of `op`; its error field stays nil. */
  function DecodeResponseJson(op: Op, j: Json): (r: Result<Response>)
    ensures r.Ok? ==> ResponseOp(r.value) == op && Failed(r.value) == None
  {
    var m :- AsObject(j);
    match op
    case SumOp => var n :- IntField(m, "v"); Ok(SumResponse(n, None))
    case ConcatOp => var v :- StrField(m, "v"); Ok(ConcatResponse(v, None))
    case PingOp => var v :- StrField(m, "v"); Ok(PingResponse(v, None))
    case AddToDoOp => var id :- StrField(m, "taskID"); Ok(AddToDoResponse(id, None))
    case CompleteToDoOp => var id :- StrField(m, "taskID"); Ok(CompleteToDoResponse(id, None))
    case UnDoToDoOp => var id :- StrField(m, "taskID"); Ok(UnDoToDoResponse(id, None))
    case DeleteToDoOp => var id :- StrField(m, "taskID"); Ok(DeleteToDoResponse(id, None))
    case GetAllToDoOp => var ts :- ItemsField(m, "todos"); Ok(GetAllToDoResponse(ts, None))
  }

  /** encodeHTTPGenericResponse: a response whose Failed() is non-nil goes
      through errorEncoder; any other is written as JSON with status 200. */
  function EncodeHTTPGenericResponse(resp: Response): (r: HttpResponse)
    ensures Failed(resp).Some? ==> r == ErrorEncoder(Failed(resp).value)
    ensures Failed(resp).None? ==> r.code == StatusOK && r.body == JsonBody(EncodeResponse(resp))
    ensures Failed(resp).None? ==> r.contentType == Some("application/json; charset=utf-8")
  {
    match Failed(resp)
    case Some(e) => ErrorEncoder(e)
    case None => HttpResponse(StatusOK, StatusLine(StatusOK), Some("application/json; charset=utf-8"),
                              JsonBody(EncodeResponse(resp)))
  }

  /** decodeHTTP<Op>Response: any status but 200 is an error carrying the
      status line, and the body is not read; otherwise the body is decoded
      into the response struct of `op`. */
  function DecodeHTTPResponse(op: Op, r: HttpResponse): (out: Result<Response>)
    ensures r.code != StatusOK ==> out == Err(Opaque(r.statusLine))
    ensures out.Ok? ==> ResponseOp(out.value) == op && Failed(out.value) == None
  {
    if r.code != StatusOK then Err(Opaque(r.statusLine))
    else match r.body
      case TextBody(_) => Err(DecodeFailure)
      case JsonBody(j) => DecodeResponseJson(op, j)
  }

  /** Response round trip: a response without a business error comes back
      equal; one with a business error comes back as an error naming the
      status line err2code chose, not the original error. */
  lemma ResponseRoundTrip(resp: Response)
    ensures Failed(resp) == None ==>
              DecodeHTTPResponse(ResponseOp(resp), EncodeHTTPGenericResponse(resp)) == Ok(resp)
    ensures Failed(resp) != None ==>
              DecodeHTTPResponse(ResponseOp(resp), EncodeHTTPGenericResponse(resp))
                == Err(Opaque(StatusLine(Err2Code(Failed(resp).value))))
  {
    if resp.GetAllToDoResponse? {
      ItemsRoundTrip(resp.todos);
    }
  }

  /** Ping and Concat responses have the same JSON shape, so a ConcatResponse
      written by the server decodes as a PingResponse on the client. */
  lemma PingConcatSameWire(v: string)
    ensures EncodeResponse(ConcatResponse(v, None)) == EncodeResponse(PingResponse(v, None))
    ensures DecodeHTTPResponse(PingOp, EncodeHTTPGenericResponse(ConcatResponse(v, None)))
              == Ok(PingResponse(v, None))
  {
  }

  // ---- Routes ----

  function Path(op: Op): string
  {
    match op
    case SumOp => "/sum"
    case ConcatOp => "/concat"
    case PingOp => "/ping"
    case AddToDoOp => "/addToDo"
    case CompleteToDoOp => "/completeToDo"
    case UnDoToDoOp => "/unDoToDo"
    case DeleteToDoOp => "/deleteToDo"
    case GetAllToDoOp => "/getAllToDo"
  }

  /** The HTTP method the client uses for each operation. The server's mux
      matches on the path alone. */
  function ClientMethod(op: Op): string
  {
    match op
    case SumOp => "POST"
    case ConcatOp => "POST"
    case PingOp => "GET"
    case AddToDoOp => "POST"
    case CompleteToDoOp => "PUT"
    case UnDoToDoOp => "PUT"
    case DeleteToDoOp => "DELETE"
    case GetAllToDoOp => "GET"
  }

  /** The server's route table: which operation a path is registered for. */
  function RouteOf(path: string): (r: Option<Op>)
    ensures r.Some? ==> Path(r.value) == path
  {
    if path == "/sum" then Some(SumOp)
    else if path == "/concat" then Some(ConcatOp)
    else if path == "/ping" then Some(PingOp)
    else if path == "/addToDo" then Some(AddToDoOp)
    else if path == "/completeToDo" then Some(CompleteToDoOp)
    else if path == "/unDoToDo" then Some(UnDoToDoOp)
    else if path == "/deleteToDo" then Some(DeleteToDoOp)
    else if path == "/getAllToDo" then Some(GetAllToDoOp)
    else None
  }

  /** Every operation's path routes back to it, so paths are distinct. */
  lemma RoutesInverse(op: Op, op': Op)
    ensures RouteOf(Path(op)) == Some(op)
    ensures Path(op) == Path(op') ==> op == op'
  {
  }
}

=== FILE: http_transport.dfy ===
/** The HTTP wiring: the server handler that routes a request to an endpoint
    chain, and the client that builds an endpoint set whose chains end in
    HTTP calls to a remote instance. The network is a parameter: a `Peer`
    answers one HTTP request or fails at the transport level. */
module HttpTransport {
  import opened Models
  import opened AddService
  import opened ServiceMiddleware
  import opened AddEndpoint
  import opened HttpCodec

  // ---- Server ----

  /** What the mux writes for a path no handler is registered for. */
  const NotFoundResponse: HttpResponse :=
    HttpResponse(StatusNotFound, StatusLine(StatusNotFound), Some("text/plain; charset=utf-8"),
                 TextBody("404 page not found\n"))

  /** One request through the handler: route on the path alone, decode the
      request (a failure goes through errorEncoder), run the endpoint chain
      (an endpoint error goes through errorEncoder), and encode the response.
      A panicking endpoint yields no response. */
  function Serve(eps: EndpointSet, env: Env, path: string, body: Body, fx: Effects): (out: (Outcome<HttpResponse>, Effects))
    ensures RouteOf(path).None? ==> out == (Done(NotFoundResponse), fx)
    ensures RouteOf(path).Some? && DecodeRequest(RouteOf(path).value, body).Err? ==>
              out == (Done(ErrorEncoder(DecodeRequest(RouteOf(path).value, body).error)), fx)
    ensures RouteOf(path).Some? && DecodeRequest(RouteOf(path).value, body).Ok? ==>
              var r := Run(ChainFor(eps, RouteOf(path).value), env, DecodeRequest(RouteOf(path).value, body).value, fx);
              out == (Respond(r.0), r.1)
    ensures out.0.Done? && out.0.value.code == StatusOK ==>
              RouteOf(path).Some? && out.0.value.contentType == Some("application/json; charset=utf-8")
  {
    match RouteOf(path)
    case None => (Done(NotFoundResponse), fx)
    case Some(op) =>
      match DecodeRequest(op, body)
      case Err(e) => (Done(ErrorEncoder(e)), fx)
      case Ok(req) =>
        var (r, fx1) := Run(ChainFor(eps, op), env, req, fx);
        (Respond(r), fx1)
  }

  /** The handler's answer to an endpoint outcome. */
  function Respond(r: Outcome<EpResult>): (out: Outcome<HttpResponse>)
    ensures out.Panicked? <==> r.Panicked?
    ensures r.Done? && r.value.Errored? ==> out == Done(ErrorEncoder(r.value.err))
    ensures r.Done? && r.value.Returned? ==> out == Done(EncodeHTTPGenericResponse(r.value.resp))
    ensures out.Done? && out.value.code == StatusOK ==> out.value.contentType == Some("application/json; charset=utf-8")
  {
    match r
    case Panicked => Panicked
    case Done(Errored(e)) => Done(ErrorEncoder(e))
    case Done(Returned(resp)) => Done(EncodeHTTPGenericResponse(resp))
  }

  /** A request encoded by the client and sent to its operation's path is
      routed to that operation's chain and decoded back to itself. */
  lemma ServeWellFormed(eps: EndpointSet, env: Env, req: Request, fx: Effects)
    ensures var r := Run(ChainFor(eps, RequestOp(req)), env, req, fx);
            Serve(eps, env, Path(RequestOp(req)), JsonBody(EncodeRequest(req)), fx) == (Respond(r.0), r.1)
  {
    RoutesInverse(RequestOp(req), RequestOp(req));
    RequestRoundTrip(req);
  }

  /** Bodies the client never sends still reach the chain: a missing field
      or a null body leaves the zero value, as Go's decoder does. */
  lemma ServeLenientSumBodies(eps: EndpointSet, env: Env, fx: Effects)
    ensures var r := Run(ChainFor(eps, SumOp), env, SumRequest(1, 0), fx);
            Serve(eps, env, "/sum", JsonBody(JObj(map["A" := JInt(1)])), fx) == (Respond(r.0), r.1)
    ensures var r := Run(ChainFor(eps, SumOp), env, SumRequest(0, 0), fx);
            Serve(eps, env, "/sum", JsonBody(JNull), fx) == (Respond(r.0), r.1)
  {
    assert RouteOf("/sum") == Some(SumOp) by { RoutesInverse(SumOp, SumOp); }
  }

  /** A routed, well-formed request that a limiter or breaker of its chain
      refuses is answered through errorEncoder with status 500, and the
      service is never reached. */
  lemma ServeRefused(eps: EndpointSet, env: Env, path: string, body: Body, fx: Effects)
    requires RouteOf(path).Some? && DecodeRequest(RouteOf(path).value, body).Ok?
    requires !Admitted(ChainFor(eps, RouteOf(path).value), env)
    ensures var out := Serve(eps, env, path, body, fx);
            && out.1 == fx
            && out.0.Done? && out.0.value.code == StatusInternalServerError
  {
    var op := RouteOf(path).value;
    RunRefused(ChainFor(eps, op), env, DecodeRequest(op, body).value, fx);
  }

  // ---- URLs ----

  datatype URL = URL(scheme: string, opaquePart: string, user: string, host: string, path: string,
                     rawPath: string, rawQuery: string, fragment: string)

  predicate StartsWith(s: string, prefix: string)
  {
    |prefix| <= |s| && s[..|prefix|] == prefix
  }

  /** The instance string is prefixed with "http://" unless it already
      starts with "http". */
  function Sanitize(instance: string): (r: string)
    ensures StartsWith(r, "http")
    ensures StartsWith(instance, "http") ==> r == instance
    ensures !StartsWith(instance, "http") ==> r == "http://" + instance
  {
    if StartsWith(instance, "http") then instance else "http://" + instance
  }

  lemma SanitizeIdempotent(instance: string)
    ensures Sanitize(Sanitize(instance)) == Sanitize(instance)
  {
  }

  /** copyURL: a copy of the base URL with only the path replaced. */
  function CopyURL(base: URL, path: string): (r: URL)
    ensures r.path == path
    ensures r.(path := base.path) == base
  {
    base.(path := path)
  }

  // ---- Client ----

  /** The remote side of one HTTP exchange: method, URL and body in, a
      response or a transport error out. */
  type Peer = (string, URL, Body) -> Result<HttpResponse>

  /** The HTTP client endpoint of `op`: encode the request, send it with the
      operation's method to its path under the base URL, and decode the
      response with the operation's decoder. */
  function ClientCall(base: URL, peer: Peer, op: Op, req: Request): (r: EpResult)
    ensures var sent := peer(ClientMethod(op), CopyURL(base, Path(op)), JsonBody(EncodeRequest(req)));
            && (sent.Err? ==> r == Errored(sent.error))
            && (sent.Ok? && sent.value.code != StatusOK ==> r == Errored(Opaque(sent.value.statusLine)))
            && (sent.Ok? && sent.value.code == StatusOK ==>
                  (r.Returned? <==> DecodeHTTPResponse(op, sent.value).Ok?))
            && (sent.Ok? && sent.value.code == StatusOK && DecodeHTTPResponse(op, sent.value).Err? ==>
                  r == Errored(DecodeHTTPResponse(op, sent.value).error))
            && (r.Returned? ==> sent.Ok? && Ok(r.resp) == DecodeHTTPResponse(op, sent.value))
    ensures r.Returned? ==> ResponseOp(r.resp) == op && Failed(r.resp) == None
  {
    match peer(ClientMethod(op), CopyURL(base, Path(op)), JsonBody(EncodeRequest(req)))
    case Err(e) => Errored(e)
    case Ok(resp) =>
      match DecodeHTTPResponse(op, resp)
      case Err(e) => Errored(e)
      case Ok(x) => Returned(x)
  }

  /** The environment client chains run in: remote calls go to `peer`. The
      service is not reached by client chains. */
  function ClientEnv(base: URL, peer: Peer, admit: Tag -> Option<string>, svc: Service): Env
  {
    Env(svc, (op: Op, req: Request) => ClientCall(base, peer, op, req), admit)
  }

  /** One token bucket of 100 requests, refilled once a second, shared by
      every client endpoint. */
  const SharedLimiter: Tag := RateLimiter(SharedByClient, 1, 100)

  /** Each client endpoint has its own breaker, named after the operation,
      that stays open 30 seconds for Sum and 10 for the others. */
  function ClientBreaker(op: Op): Tag
  {
    CircuitBreaker(op, OpName(op), if op == SumOp then 30 else 10)
  }

  /** The middleware of a client endpoint, innermost first. */
  function ClientTags(op: Op, zipkin: bool): seq<Tag>
  {
    [ClientTracing(OpName(op))]
    + (if zipkin then [ZipkinTracing(OpName(op))] else [])
    + [SharedLimiter, ClientBreaker(op)]
  }

  function ClientChain(op: Op, zipkin: bool): Chain
  {
    Apply(ClientTags(op, zipkin), Bare(Remote(op)))
  }

  /** The layers of a client chain, outermost first. */
  function ClientOrder(op: Op, zipkin: bool): seq<Tag>
  {
    [ClientBreaker(op), SharedLimiter]
    + (if zipkin then [ZipkinTracing(OpName(op))] else [])
    + [ClientTracing(OpName(op))]
  }

  /** The as-written CRUD client endpoints: tracing, the limiter and the
      operation's breaker applied over another chain. */
  function CrossWired(op: Op, over: Chain): Chain
  {
    Apply([ClientTracing(OpName(op)), SharedLimiter, ClientBreaker(op)], over)
  }

  function ZipkinOver(zipkin: bool, name: string, c: Chain): Chain
  {
    if zipkin then Wrap(ZipkinTracing(name), c) else c
  }

  /** The endpoint set NewHTTPClient returns. As written, each CRUD block
      wraps the Ping chain instead of its own HTTP client, and with a zipkin
      tracer adds its zipkin layer to the Ping chain; GetAllToDo's limiter
      wraps the DeleteToDo endpoint. Corrected, every operation gets its own
      chain over its own HTTP client. */
  function ClientChains(zipkin: bool, build: Build): EndpointSet
  {
    if build == Corrected then
      EndpointSet(
        ClientChain(SumOp, zipkin), ClientChain(ConcatOp, zipkin), ClientChain(PingOp, zipkin),
        ClientChain(AddToDoOp, zipkin), ClientChain(CompleteToDoOp, zipkin), ClientChain(UnDoToDoOp, zipkin),
        ClientChain(DeleteToDoOp, zipkin), ClientChain(GetAllToDoOp, zipkin))
    else
      var ping0 := ClientChain(PingOp, zipkin);
      var add := CrossWired(AddToDoOp, ping0);
      var ping1 := ZipkinOver(zipkin, "AddToDo", ping0);
      var complete := CrossWired(CompleteToDoOp, ping1);
      var ping2 := ZipkinOver(zipkin, "CompleteToDo", ping1);
      var undo := CrossWired(UnDoToDoOp, ping2);
      var ping3 := ZipkinOver(zipkin, "UnDoToDo", ping2);
      var delete := CrossWired(DeleteToDoOp, ping3);
      var ping4 := ZipkinOver(zipkin, "DeleteToDo", ping3);
      var getAll := Wrap(ClientBreaker(GetAllToDoOp), Wrap(SharedLimiter, delete));
      var ping5 := ZipkinOver(zipkin, "GetAllToDo", ping4);
      EndpointSet(ClientChain(SumOp, zipkin), ClientChain(ConcatOp, zipkin), ping5,
                  add, complete, undo, delete, getAll)
  }

  datatype Client = Client(base: URL, endpoints: EndpointSet)

  /** NewHTTPClient: sanitize the instance, parse it (a parse error is
      returned as is) and build the client endpoints over the parsed URL. */
  function NewHTTPClient(instance: string, parse: string -> Result<URL>, zipkin: bool, build: Build): (r: Result<Client>)
    ensures r.Ok? <==> parse(Sanitize(instance)).Ok?
    ensures r.Err? ==> r.error == parse(Sanitize(instance)).error
    ensures r.Ok? ==> r.value == Client(parse(Sanitize(instance)).value, ClientChains(zipkin, build))
  {
    var u :- parse(Sanitize(instance));
    Ok(Client(u, ClientChains(zipkin, build)))
  }

  // ---- Shapes of the client chains ----

  lemma ClientChainShape(op: Op, zipkin: bool)
    ensures Layers(ClientChain(op, zipkin)) == ClientOrder(op, zipkin)
    ensures Innermost(ClientChain(op, zipkin)) == Remote(op)
  {
    var ts := ClientTags(op, zipkin);
    ApplyShape(ts, Bare(Remote(op)));
    if zipkin {
      ReverseFour(ts);
    } else {
      ReverseThree(ts);
    }
  }

  lemma CrossWiredShape(op: Op, over: Chain)
    ensures Layers(CrossWired(op, over)) == [ClientBreaker(op), SharedLimiter, ClientTracing(OpName(op))] + Layers(over)
    ensures Innermost(CrossWired(op, over)) == Innermost(over)
  {
    var ts := [ClientTracing(OpName(op)), SharedLimiter, ClientBreaker(op)];
    ApplyShape(ts, over);
    ReverseThree(ts);
  }

  /** Corrected, each client endpoint is its own HTTP client of the
      operation, under breaker, limiter, the optional zipkin layer and
      tracing. */
  lemma CorrectedClientWiring(zipkin: bool, op: Op)
    ensures Innermost(ChainFor(ClientChains(zipkin, Corrected), op)) == Remote(op)
    ensures Layers(ChainFor(ClientChains(zipkin, Corrected), op)) == ClientOrder(op, zipkin)
  {
    ClientChainShape(op, zipkin);
  }

  predicate IsCrudOp(op: Op)
  {
    op == AddToDoOp || op == CompleteToDoOp || op == UnDoToDoOp || op == DeleteToDoOp || op == GetAllToDoOp
  }

  /** As written, all five CRUD client endpoints send their request to
      /ping, through the Ping endpoint's own breaker and limiter; AddToDo's
      layers are its own three over the whole Ping chain, so one AddToDo
      call passes the shared limiter twice. */
  lemma AsWrittenClientCrossWiring(zipkin: bool, op: Op)
    requires IsCrudOp(op)
    ensures Innermost(ChainFor(ClientChains(zipkin, AsWritten), op)) == Remote(PingOp)
    ensures Layers(ClientChains(zipkin, AsWritten).addToDo)
              == [ClientBreaker(AddToDoOp), SharedLimiter, ClientTracing("AddToDo")] + ClientOrder(PingOp, zipkin)
    ensures ClientChains(zipkin, AsWritten).getAllToDo
              == Wrap(ClientBreaker(GetAllToDoOp), Wrap(SharedLimiter, ClientChains(zipkin, AsWritten).deleteToDo))
  {
    var ping0 := ClientChain(PingOp, zipkin);
    ClientChainShape(PingOp, zipkin);
    var ping1 := ZipkinOver(zipkin, "AddToDo", ping0);
    var ping2 := ZipkinOver(zipkin, "CompleteToDo", ping1);
    var ping3 := ZipkinOver(zipkin, "UnDoToDo", ping2);
    CrossWiredShape(AddToDoOp, ping0);
    CrossWiredShape(CompleteToDoOp, ping1);
    CrossWiredShape(UnDoToDoOp, ping2);
    CrossWiredShape(DeleteToDoOp, ping3);
  }

  /** As written, the Ping client endpoint carries one extra zipkin layer
      per CRUD block when a zipkin tracer is given, outermost the last. */
  lemma AsWrittenClientPing(zipkin: bool)
    ensures Innermost(ClientChains(zipkin, AsWritten).ping) == Remote(PingOp)
    ensures Layers(ClientChains(zipkin, AsWritten).ping)
              == (if zipkin then [ZipkinTracing("GetAllToDo"), ZipkinTracing("DeleteToDo"), ZipkinTracing("UnDoToDo"),
                                  ZipkinTracing("CompleteToDo"), ZipkinTracing("AddToDo")]
                  else [])
                 + ClientOrder(PingOp, zipkin)
  {
    ClientChainShape(PingOp, zipkin);
    var ping0 := ClientChain(PingOp, zipkin);
    var ping1 := ZipkinOver(zipkin, "AddToDo", ping0);
    var ping2 := ZipkinOver(zipkin, "CompleteToDo", ping1);
    var ping3 := ZipkinOver(zipkin, "UnDoToDo", ping2);
    var ping4 := ZipkinOver(zipkin, "DeleteToDo", ping3);
    var ping5 := ZipkinOver(zipkin, "GetAllToDo", ping4);
    assert ClientChains(zipkin, AsWritten).ping == ping5;
    if zipkin {
      assert Layers(ping1) == [ZipkinTracing("AddToDo")] + Layers(ping0);
      assert Layers(ping2) == [ZipkinTracing("CompleteToDo")] + Layers(ping1);
      assert Layers(ping3) == [ZipkinTracing("UnDoToDo")] + Layers(ping2);
      assert Layers(ping4) == [ZipkinTracing("DeleteToDo")] + Layers(ping3);
      assert Layers(ping5) == [ZipkinTracing("GetAllToDo")] + Layers(ping4);
      assert Innermost(ping5) == Innermost(ping4) == Innermost(ping3) == Innermost(ping2) == Innermost(ping1);
    }
  }

  // ---- Behaviour of the client ----

  /** Consequence of the cross-wiring: whatever the remote instance answers
      and whatever the admission layers decide, an as-written client's CRUD
      methods never succeed; they fail with an error or panic on the Ping
      response they receive. */
  lemma {:induction false} AsWrittenClientCrudNeverSucceeds(zipkin: bool, base: URL, peer: Peer,
                                                            admit: Tag -> Option<string>, svc: Service,
                                                            c: Call, fx: Effects)
    requires IsCrudOp(OpOf(c))
    ensures var out := SetInvoke(ClientChains(zipkin, AsWritten), ClientEnv(base, peer, admit, svc), c, fx);
            out.0.Panicked? || ReplyErr(out.0.value) != None
  {
    var env := ClientEnv(base, peer, admit, svc);
    var op := OpOf(c);
    var ch := ChainFor(ClientChains(zipkin, AsWritten), op);
    var req := RequestOf(c);
    AsWrittenClientCrossWiring(zipkin, op);
    RunRefusal(ch, env, req, fx);
    var r := Run(ch, env, req, fx);
    if r == Run(Bare(Innermost(ch)), env, req, fx) {
      assert r == (Done(ClientCall(base, peer, PingOp, req)), fx);
      match ClientCall(base, peer, PingOp, req)
      case Errored(e) => ZeroReplyErr(c, e);
      case Returned(resp) =>
        assert ResponseOp(resp) == PingOp;
    } else {
      var i :| && 0 <= i < |Layers(ch)| && IsAdmission(Layers(ch)[i])
               && env.admit(Layers(ch)[i]).Some?
               && r == (Done(Errored(Opaque(env.admit(Layers(ch)[i]).value))), fx);
      ZeroReplyErr(c, Opaque(env.admit(Layers(ch)[i]).value));
    }
  }

  /** Corrected and with open gates, a call's request reaches the endpoint
      constructor of its own operation, which returns the service's reply
      packed into that operation's response. */
  lemma {:induction false} CorrectedServerRun(zipkin: bool, env: Env, c: Call, fx: Effects)
    requires OpenGates(env)
    ensures var (r, fx1) := Invoke(env.svc, c, fx);
            && OpFits(OpOf(c), r)
            && Run(ChainFor(NewSet(zipkin, Corrected), OpOf(c)), env, RequestOf(c), fx)
                 == (Done(Returned(ResponseFor(OpOf(c), r))), fx1)
  {
    var op := OpOf(c);
    var req := RequestOf(c);
    var ch := ChainFor(NewSet(zipkin, Corrected), op);
    CorrectedServerWiring(zipkin, op);
    OpenGatesAdmit(ch, env);
    RunReachesBase(ch, env, req, fx);
    CallForOwnOp(c);
    ResponseForInverse(c, Invoke(env.svc, c, fx).0);
  }

  /** Corrected and with open gates, the server answers the encoding of a
      call's request on that operation's path with the encoding of the
      service's reply, and the service's side effects. */
  lemma {:induction false} ServeCorrected(zipkin: bool, env: Env, c: Call, fx: Effects)
    requires OpenGates(env)
    ensures var (r, fx1) := Invoke(env.svc, c, fx);
            && OpFits(OpOf(c), r)
            && Serve(NewSet(zipkin, Corrected), env, Path(OpOf(c)), JsonBody(EncodeRequest(RequestOf(c))), fx)
                 == (Done(EncodeHTTPGenericResponse(ResponseFor(OpOf(c), r))), fx1)
  {
    RequestCallInverse(c, RequestOf(c));
    ServeWellFormed(NewSet(zipkin, Corrected), env, RequestOf(c), fx);
    CorrectedServerRun(zipkin, env, c, fx);
  }

  /** The corrected server as a peer: a panic closes the connection. */
  function ServerPeer(eps: EndpointSet, env: Env, fx: Effects): Peer
  {
    (m: string, u: URL, body: Body) =>
      match Serve(eps, env, u.path, body, fx).0
      case Done(resp) => Ok(resp)
      case Panicked => Err(ConnectionClosed)
  }

  const ConnectionClosed: Error := Opaque("EOF")

  /** End to end, corrected on both sides with open gates: a client method
      returns exactly the service's reply when the service succeeds; when it
      fails, the zero value and an error naming only the HTTP status line
      err2code chose, so the client cannot tell which business error it was.
      The client's own side effects are unchanged. */
  lemma {:induction false} ClientOverServer(zs: bool, zc: bool, server: Env, base: URL,
                                            admit: Tag -> Option<string>, svc: Service,
                                            c: Call, fx: Effects, fxs: Effects)
    requires OpenGates(server)
    requires forall t :: admit(t) == None
    ensures var env := ClientEnv(base, ServerPeer(NewSet(zs, Corrected), server, fxs), admit, svc);
            var r := Invoke(server.svc, c, fxs).0;
            SetInvoke(ClientChains(zc, Corrected), env, c, fx)
              == (Done(if ReplyErr(r) == None then r
                       else ZeroReply(c, Opaque(StatusLine(Err2Code(ReplyErr(r).value))))), fx)
  {
    var peer := ServerPeer(NewSet(zs, Corrected), server, fxs);
    var env := ClientEnv(base, peer, admit, svc);
    var op := OpOf(c);
    var req := RequestOf(c);
    var r := Invoke(server.svc, c, fxs).0;
    var ch := ChainFor(ClientChains(zc, Corrected), op);
    CorrectedClientWiring(zc, op);
    OpenGatesAdmit(ch, env);
    RunReachesBase(ch, env, req, fx);
    assert Run(ch, env, req, fx) == (Done(ClientCall(base, peer, op, req)), fx);
    ServeCorrected(zs, server, c, fxs);
    ResponseForInverse(c, r);
    var resp := ResponseFor(op, r);
    assert peer(ClientMethod(op), CopyURL(base, Path(op)), JsonBody(EncodeRequest(req)))
             == Ok(EncodeHTTPGenericResponse(resp));
    ResponseRoundTrip(resp);
  }

  /** The as-written Ping endpoint's ConcatResponse is masked by HTTP: it has
      the Ping response's JSON shape, so an as-written client's Ping over an
      as-written server with open gates returns the service's Ping reply,
      where the in-process endpoint set panics. */
  lemma {:induction false} AsWrittenPingOverHttp(zs: bool, zc: bool, server: Env, base: URL,
                                                 admit: Tag -> Option<string>, svc: Service,
                                                 fx: Effects, fxs: Effects)
    requires OpenGates(server)
    requires forall t :: admit(t) == None
    ensures var env := ClientEnv(base, ServerPeer(NewSet(zs, AsWritten), server, fxs), admit, svc);
            SetInvoke(ClientChains(zc, AsWritten), env, PingCall, fx)
              == (Done(Invoke(server.svc, PingCall, fxs).0), fx)
  {
    var peer := ServerPeer(NewSet(zs, AsWritten), server, fxs);
    var env := ClientEnv(base, peer, admit, svc);
    AsWrittenClientPingRun(zc, base, peer, admit, svc, fx);
    PingCallOverAsWrittenServer(zs, server, base, fxs);
    var r := Invoke(server.svc, PingCall, fxs).0;
    SetPingFromRun(ClientChains(zc, AsWritten), env, r.s.v, None, fx, fx);
  }

  /** As written, one HTTP Ping call to an as-written server with open gates
      decodes to a PingResponse carrying the service's Ping text. */
  lemma {:induction false} PingCallOverAsWrittenServer(zs: bool, server: Env, base: URL, fxs: Effects)
    requires OpenGates(server)
    ensures var r := Invoke(server.svc, PingCall, fxs).0;
            && r.TextReply? && r.s.err == None
            && ClientCall(base, ServerPeer(NewSet(zs, AsWritten), server, fxs), PingOp, PingRequest)
                 == Returned(PingResponse(r.s.v, None))
  {
    var peer := ServerPeer(NewSet(zs, AsWritten), server, fxs);
    AsWrittenServerPing(zs, server, fxs);
    var v := Invoke(server.svc, PingCall, fxs).0.s.v;
    PingConcatSameWire(v);
    assert peer(ClientMethod(PingOp), CopyURL(base, Path(PingOp)), JsonBody(EncodeRequest(PingRequest)))
             == Ok(EncodeHTTPGenericResponse(ConcatResponse(v, None)));
  }

  /** As written and with open gates, the client's Ping endpoint is one
      HTTP call to /ping, whatever its extra zipkin layers. */
  lemma {:induction false} AsWrittenClientPingRun(zc: bool, base: URL, peer: Peer, admit: Tag -> Option<string>,
                                                  svc: Service, fx: Effects)
    requires forall t :: admit(t) == None
    ensures Run(ClientChains(zc, AsWritten).ping, ClientEnv(base, peer, admit, svc), PingRequest, fx)
              == (Done(ClientCall(base, peer, PingOp, PingRequest)), fx)
  {
    var env := ClientEnv(base, peer, admit, svc);
    var ch := ClientChains(zc, AsWritten).ping;
    AsWrittenClientPing(zc);
    OpenGatesAdmit(ch, env);
    RunReachesBase(ch, env, PingRequest, fx);
  }

  /** As written and with open gates, the server answers /ping with the
      service's Ping text in a ConcatResponse, which never carries an error. */
  lemma {:induction false} AsWrittenServerPing(zs: bool, server: Env, fxs: Effects)
    requires OpenGates(server)
    ensures var r := Invoke(server.svc, PingCall, fxs).0;
            && r.TextReply? && r.s.err == None
            && Serve(NewSet(zs, AsWritten), server, Path(PingOp), JsonBody(EncodeRequest(PingRequest)), fxs).0
                 == Done(EncodeHTTPGenericResponse(ConcatResponse(r.s.v, None)))
  {
    var sch := NewSet(zs, AsWritten).ping;
    ServeWellFormed(NewSet(zs, AsWritten), server, PingRequest, fxs);
    AsWrittenPingConcat(zs);
    OpenGatesAdmit(sch, server);
    RunReachesBase(sch, server, PingRequest, fxs);
    InvokeTransparent(server.svc, PingCall, fxs);
  }
}

=== FILE: models.dfy ===
/** Values shared by every layer of the add/to-do service: the to-do record,
    Go's `(value, error)` result pairs, the service's error values, Go's
    64-bit `int` and Go's byte-counting `len` on strings. */
module Models {

  datatype Option<T> = None | Some(value: T)

  /** A Dafny-style result, used where the source returns `(x, err)` and the
      value is meaningless on error (decoders, URL parsing). */
  datatype Result<T> = Ok(value: T) | Err(error: Error) {
    predicate IsFailure() { Err? }

    function PropagateFailure<U>(): Result<U>
      requires Err?
    {
      Err(error)
    }

    function Extract(): T
      requires Ok?
    {
      value
    }
  }

  /** What a Go call produces when it may panic: a failed type assertion
      (`resp.(PingResponse)` on another response type) is `Panicked`. */
  datatype Outcome<T> = Done(value: T) | Panicked

  /** Which wiring a builder uses: the source as written, or the evidently
      intended one (see the Findings of README.md). */
  datatype Build = AsWritten | Corrected

  const MinInt64: int := -0x8000_0000_0000_0000
  const MaxInt64: int := 0x7fff_ffff_ffff_ffff

  /** Go's `int` on a 64-bit platform. */
  type Int64 = x: int | MinInt64 <= x <= MaxInt64

  /** A to-do document: the store-assigned id (an ObjectID, kept as its hex
      text), the to-do text and the completion flag. */
  datatype ToDoItem = ToDoItem(id: string, task: string, status: bool)

  /** An error value. The three business sentinels are compared by identity,
      so an error merely carrying the same text is not one of them: every
      other error (store failures, decode failures, `errors.New(text)`,
      admission-control refusals) is `Opaque`. */
  datatype Error = TwoZeroes | IntOverflow | MaxSizeExceeded | Opaque(msg: string)

  /** `err.Error()`. */
  function Message(e: Error): string
  {
    match e
    case TwoZeroes => "can't sum two zeroes"
    case IntOverflow => "integer overflow"
    case MaxSizeExceeded => "result exceeds maximum size"
    case Opaque(m) => m
  }

  /** A Go result pair `(v, err)`; `err == None` is the nil error. */
  datatype Ret<T> = Ret(v: T, err: Option<Error>)

  /** Bytes in the UTF-8 encoding of one character. */
  function Utf8Width(c: char): nat
  {
    var n := c as int;
    if n < 0x80 then 1 else if n < 0x800 then 2 else if n < 0x1_0000 then 3 else 4
  }

  /** Go's `len(s)`: the number of bytes of the UTF-8 encoding of `s`. */
  function ByteLen(s: string): nat
  {
    if s == [] then 0 else Utf8Width(s[0]) + ByteLen(s[1..])
  }

  /** Byte length is additive over concatenation. */
  lemma {:induction false} ByteLenAppend(a: string, b: string)
    ensures ByteLen(a + b) == ByteLen(a) + ByteLen(b)
  {
    if a == [] {
      assert a + b == b;
    } else {
      assert (a + b)[0] == a[0];
      assert (a + b)[1..] == a[1..] + b;
      ByteLenAppend(a[1..], b);
    }
  }

  /** Every character takes one to four bytes, so a byte bound is also a
      character bound. */
  lemma {:induction false} ByteLenBounds(s: string)
    ensures |s| <= ByteLen(s) <= 4 * |s|
    ensures ByteLen(s) == 0 <==> s == []
  {
    if s != [] {
      ByteLenBounds(s[1..]);
    }
  }
}

=== FILE: service.dfy ===
/** The operation core: the business rules of the basic service and its
    pass-throughs to the store port. */
module AddService {
  import opened Models
  import opened Store

  /** The 32-bit range the Sum guard protects, and the Concat cap in bytes. */
  const IntMax: int := 0x7fff_ffff
  const IntMin: int := -(IntMax + 1)
  const MaxLen: nat := 10

  predicate InInt32(x: int)
  {
    IntMin <= x <= IntMax
  }

  /** `a + b` passes the 32-bit bound on the side that `b` moves towards. */
  predicate PassesBoundTowardB(a: int, b: int)
  {
    (b > 0 && a + b > IntMax) || (b < 0 && a + b < IntMin)
  }

  /** Sum: two zeroes are refused first; otherwise the guard refuses a
      result that passes the 32-bit bound lying on the side `b` moves
      towards. The guard is evaluated in 64-bit arithmetic and the result
      type shows it never wraps. `b == 0` is never checked. */
  function Sum(a: Int64, b: Int64): (r: Ret<Int64>)
    ensures a == 0 && b == 0 ==> r == Ret(0, Some(TwoZeroes))
    ensures (a != 0 || b != 0) && PassesBoundTowardB(a, b) ==> r == Ret(0, Some(IntOverflow))
    ensures (a != 0 || b != 0) && !PassesBoundTowardB(a, b) ==> r == Ret(a + b, None)
  {
    if a == 0 && b == 0 then Ret(0, Some(TwoZeroes))
    else if (b > 0 && a > IntMax - b) || (b < 0 && a < IntMin - b) then Ret(0, Some(IntOverflow))
    else Ret(a + b, None)
  }

  /** The evidently intended Sum: any result outside the 32-bit range is an
      overflow, whatever the signs of the operands. */
  function SumChecked(a: Int64, b: Int64): (r: Ret<Int64>)
    ensures r.err == None ==> r.v == a + b && InInt32(r.v)
    ensures r.err == Some(TwoZeroes) <==> a == 0 && b == 0
    ensures r.err == Some(IntOverflow) <==> (a != 0 || b != 0) && !InInt32(a + b)
    ensures r.err != None ==> r.v == 0
    ensures (a != 0 || b != 0) && InInt32(a + b) ==> r == Ret(a + b, None)
  {
    if a == 0 && b == 0 then Ret(0, Some(TwoZeroes))
    else if !InInt32(a + b) then Ret(0, Some(IntOverflow))
    else Ret(a + b, None)
  }

  /** The Sum a build uses. */
  function SumOf(build: Build, a: Int64, b: Int64): Ret<Int64>
  {
    if build == AsWritten then Sum(a, b) else SumChecked(a, b)
  }

  /** Concat: refused exactly when the two byte lengths together pass the cap. */
  function Concat(a: string, b: string): (r: Ret<string>)
    ensures ByteLen(a) + ByteLen(b) > MaxLen ==> r == Ret("", Some(MaxSizeExceeded))
    ensures ByteLen(a) + ByteLen(b) <= MaxLen ==> r == Ret(a + b, None)
  {
    if ByteLen(a) + ByteLen(b) > MaxLen then Ret("", Some(MaxSizeExceeded)) else Ret(a + b, None)
  }

  /** Ping reports the store's health and never fails itself. */
  function Ping(st: Store): (r: Ret<string>)
    ensures r.err == None
    ensures r.v == "up" <==> st.ping() == None
    ensures r.v == "down" <==> st.ping() != None
  {
    if st.ping() != None then Ret("down", None) else Ret("up", None)
  }

  /** The CRUD methods forward the port's result, replacing the value with
      the zero value when the port reports an error. */
  function Forward<T>(x: Ret<T>, zero: T): (r: Ret<T>)
  {
    if x.err != None then Ret(zero, x.err) else Ret(x.v, None)
  }

  function AddToDo(st: Store, task: ToDoItem): Ret<string>
  {
    Forward(st.insertToDo(task), "")
  }

  function CompleteToDo(st: Store, taskID: string): Ret<string>
  {
    Forward(st.completeToDo(taskID), "")
  }

  function UnDoToDo(st: Store, taskID: string): Ret<string>
  {
    Forward(st.unDoToDo(taskID), "")
  }

  function DeleteToDo(st: Store, taskID: string): Ret<string>
  {
    Forward(st.deleteToDo(taskID), "")
  }

  function GetAllToDo(st: Store): Ret<seq<ToDoItem>>
  {
    Forward(st.getAllToDo(), [])
  }

  /** One invocation of a method of the Service interface, with its arguments. */
  datatype Call =
    | SumCall(a: Int64, b: Int64)
    | ConcatCall(x: string, y: string)
    | PingCall
    | AddToDoCall(task: ToDoItem)
    | CompleteToDoCall(taskID: string)
    | UnDoToDoCall(taskID: string)
    | DeleteToDoCall(taskID: string)
    | GetAllToDoCall

  /** What a Service method returns, by result type. */
  datatype Reply =
    | IntReply(n: Ret<Int64>)
    | TextReply(s: Ret<string>)
    | ItemsReply(items: Ret<seq<ToDoItem>>)

  /** The reply shape the interface declares for a call. */
  predicate Fits(c: Call, r: Reply)
  {
    match c
    case SumCall(_, _) => r.IntReply?
    case GetAllToDoCall => r.ItemsReply?
    case _ => r.TextReply?
  }

  function ReplyErr(r: Reply): Option<Error>
  {
    match r
    case IntReply(n) => n.err
    case TextReply(s) => s.err
    case ItemsReply(items) => items.err
  }

  /** The basic service, dispatching one call. */
  function Basic(st: Store, build: Build, c: Call): (r: Reply)
    ensures Fits(c, r)
  {
    match c
    case SumCall(a, b) => IntReply(SumOf(build, a, b))
    case ConcatCall(x, y) => TextReply(Concat(x, y))
    case PingCall => TextReply(Ping(st))
    case AddToDoCall(t) => TextReply(AddToDo(st, t))
    case CompleteToDoCall(id) => TextReply(CompleteToDo(st, id))
    case UnDoToDoCall(id) => TextReply(UnDoToDo(st, id))
    case DeleteToDoCall(id) => TextReply(DeleteToDo(st, id))
    case GetAllToDoCall => ItemsReply(GetAllToDo(st))
  }

  // ---- Properties of the operation core ----

  /** The two-zeroes rule wins over the overflow rule. */
  lemma SumTwoZeroes()
    ensures Sum(0, 0) == Ret(0, Some(TwoZeroes))
    ensures Sum(0, 0).err != Some(IntOverflow)
  {
  }

  /** For b != 0 and a 32-bit `a`, the written guard is exactly "a + b
      leaves the 32-bit range", and a successful result lies inside it. */
  lemma SumGuardIsRange(a: Int64, b: Int64)
    requires b != 0 && InInt32(a)
    ensures Sum(a, b).err == Some(IntOverflow) <==> !InInt32(a + b)
    ensures Sum(a, b).err == None <==> InInt32(a + b)
    ensures Sum(a, b).err == None ==> Sum(a, b).v == a + b && InInt32(Sum(a, b).v)
  {
  }

  /** With b == 0 the guard never fires: a non-zero `a` comes back unchanged
      even outside the 32-bit range. */
  lemma SumZeroAddend(a: Int64)
    requires a != 0
    ensures Sum(a, 0) == Ret(a, None)
  {
  }

  lemma SumBoundaryCases()
    ensures Sum(IntMax + 1, 0) == Ret(IntMax + 1, None)
    ensures Sum(IntMax, 1) == Ret(0, Some(IntOverflow))
    ensures Sum(IntMin, -1) == Ret(0, Some(IntOverflow))
  {
  }

  /** The guard is one-sided: a 64-bit `a` below the 32-bit range plus a
      positive `b` is accepted with a result outside the range, where the
      corrected Sum reports an overflow. */
  lemma SumGuardOneSided()
    ensures Sum(-0x1_0000_0000, 1) == Ret(-0x1_0000_0000 + 1, None)
    ensures !InInt32(Sum(-0x1_0000_0000, 1).v)
    ensures SumChecked(-0x1_0000_0000, 1) == Ret(0, Some(IntOverflow))
  {
  }

  /** On 32-bit operands the one-sided guard is enough: the two Sums agree. */
  lemma SumAgreesOnInt32(a: Int64, b: Int64)
    requires InInt32(a) && InInt32(b)
    ensures Sum(a, b) == SumChecked(a, b)
  {
  }

  /** An accepted concatenation is the joined text and fits the cap in bytes
      and therefore in characters; a refused one is empty. */
  lemma ConcatBounded(a: string, b: string)
    ensures Concat(a, b).err == None <==> ByteLen(a + b) <= MaxLen
    ensures Concat(a, b).err == None ==> Concat(a, b).v == a + b && |Concat(a, b).v| <= MaxLen
    ensures Concat(a, b).err != None ==> Concat(a, b) == Ret("", Some(MaxSizeExceeded))
  {
    ByteLenAppend(a, b);
    ByteLenBounds(a + b);
  }

  lemma ConcatElevenRefused()
    ensures Concat("abcdef", "ghijk") == Ret("", Some(MaxSizeExceeded))
  {
    assert ByteLen("abcdef") == 6;
    assert ByteLen("ghijk") == 5;
  }

  /** Every CRUD method returns the port's value unchanged on success, and on
      a port error the zero value with that same error. */
  lemma CrudPassThrough(st: Store, t: ToDoItem, id: string)
    ensures st.insertToDo(t).err == None ==> AddToDo(st, t) == Ret(st.insertToDo(t).v, None)
    ensures st.insertToDo(t).err != None ==> AddToDo(st, t) == Ret("", st.insertToDo(t).err)
    ensures st.completeToDo(id).err == None ==> CompleteToDo(st, id) == Ret(st.completeToDo(id).v, None)
    ensures st.completeToDo(id).err != None ==> CompleteToDo(st, id) == Ret("", st.completeToDo(id).err)
    ensures st.unDoToDo(id).err == None ==> UnDoToDo(st, id) == Ret(st.unDoToDo(id).v, None)
    ensures st.unDoToDo(id).err != None ==> UnDoToDo(st, id) == Ret("", st.unDoToDo(id).err)
    ensures st.deleteToDo(id).err == None ==> DeleteToDo(st, id) == Ret(st.deleteToDo(id).v, None)
    ensures st.deleteToDo(id).err != None ==> DeleteToDo(st, id) == Ret("", st.deleteToDo(id).err)
    ensures st.getAllToDo().err == None ==> GetAllToDo(st) == Ret(st.getAllToDo().v, None)
    ensures st.getAllToDo().err != None ==> GetAllToDo(st) == Ret([], st.getAllToDo().err)
  {
  }
}

=== FILE: service_middleware.dfy ===
/** The service-level decorators: logging and instrumenting wrap a Service
    and return the inner results unchanged, adding one fixed side effect per
    call. Side effects are collected in an `Effects` record threaded through
    each call; the logger and metrics backends behind them are not modelled. */
module ServiceMiddleware {
  import opened Models
  import opened Store
  import opened AddService

  /** One logger line: the method label, the call's inputs and its outputs. */
  datatype LogRecord = LogRecord(name: string, call: Call, reply: Reply)

  /** The two latency histograms of the instrumenting decorator. */
  datatype Histogram = CubToDo | GetToDo

  /** One histogram observation with its `method` and `error` labels; the
      observed duration itself is not modelled. */
  datatype Observation = Observation(histogram: Histogram, name: string, failed: bool)

  /** The log and the metrics. `ints` and `chars` are the two counters. */
  datatype Effects = Effects(logs: seq<LogRecord>, ints: int, chars: int, observations: seq<Observation>)

  /** A Service as built from decorators: the basic service over a store, or
      a decorator around another Service. */
  datatype Service =
    | BasicService(store: Store, build: Build)
    | LoggingMiddleware(next: Service)
    | InstrumentingMiddleware(next: Service, build: Build)

  /** The name of the interface method a call invokes. */
  function MethodName(c: Call): string
  {
    match c
    case SumCall(_, _) => "Sum"
    case ConcatCall(_, _) => "Concat"
    case PingCall => "Ping"
    case AddToDoCall(_) => "AddToDo"
    case CompleteToDoCall(_) => "CompleteToDo"
    case UnDoToDoCall(_) => "UnDoToDo"
    case DeleteToDoCall(_) => "DeleteToDo"
    case GetAllToDoCall => "GetAllToDo"
  }

  /** The `method` label each logging method writes, spelled as in the source. */
  function LogLabel(c: Call): string
  {
    match c
    case CompleteToDoCall(_) => "CompleteTod"
    case UnDoToDoCall(_) => "UnDoTodo"
    case _ => MethodName(c)
  }

  /** The histogram and `method` label an instrumented CRUD method observes
      into. As written, GetAllToDo is labelled "DeleteToDo". */
  function ObservedAs(c: Call, build: Build): (Histogram, string)
  {
    match c
    case GetAllToDoCall => (GetToDo, if build == AsWritten then "DeleteToDo" else "GetAllToDo")
    case _ => (CubToDo, MethodName(c))
  }

  predicate IsCrud(c: Call)
  {
    c.AddToDoCall? || c.CompleteToDoCall? || c.UnDoToDoCall? || c.DeleteToDoCall? || c.GetAllToDoCall?
  }

  /** The side effect of the logging decorator for one completed call. */
  function LogStep(c: Call, r: Reply, fx: Effects): Effects
  {
    fx.(logs := fx.logs + [LogRecord(LogLabel(c), c, r)])
  }

  /** The side effect of the instrumenting decorator for one completed call. */
  function Instrument(c: Call, r: Reply, build: Build, fx: Effects): Effects
    requires Fits(c, r)
  {
    match c
    case SumCall(_, _) => fx.(ints := fx.ints + r.n.v)
    case ConcatCall(_, _) => fx.(chars := fx.chars + ByteLen(r.s.v))
    case PingCall => fx.(chars := fx.chars + 1)
    case _ =>
      var (h, name) := ObservedAs(c, build);
      fx.(observations := fx.observations + [Observation(h, name, ReplyErr(r) != None)])
  }

  /** Calls one Service method: the inner service first, then the decorator's
      side effect on the way out. */
  function Invoke(s: Service, c: Call, fx: Effects): (out: (Reply, Effects))
    ensures Fits(c, out.0)
    decreases s
  {
    match s
    case BasicService(st, build) => (Basic(st, build, c), fx)
    case LoggingMiddleware(next) =>
      var (r, fx1) := Invoke(next, c, fx);
      (r, LogStep(c, r, fx1))
    case InstrumentingMiddleware(next, build) =>
      var (r, fx1) := Invoke(next, c, fx);
      (r, Instrument(c, r, build, fx1))
  }

  /** service.go New: the basic service, wrapped in logging, wrapped in
      instrumenting, which is therefore outermost. */
  function New(st: Store, build: Build): Service
  {
    InstrumentingMiddleware(LoggingMiddleware(BasicService(st, build)), build)
  }

  /** The store and build at the bottom of a decorator stack. */
  function Bottom(s: Service): BasicServiceParts
  {
    match s
    case BasicService(st, build) => BasicServiceParts(st, build)
    case LoggingMiddleware(next) => Bottom(next)
    case InstrumentingMiddleware(next, _) => Bottom(next)
  }

  datatype BasicServiceParts = BasicServiceParts(store: Store, build: Build)

  /** How many logging decorators a stack holds. */
  function LoggingDepth(s: Service): nat
  {
    match s
    case BasicService(_, _) => 0
    case LoggingMiddleware(next) => 1 + LoggingDepth(next)
    case InstrumentingMiddleware(next, _) => LoggingDepth(next)
  }

  // ---- Properties of the decorators ----

  /** Decorators are transparent: whatever the stack, the reply is the basic
      service's reply to the same call. */
  lemma {:induction false} InvokeTransparent(s: Service, c: Call, fx: Effects)
    ensures Invoke(s, c, fx).0 == Basic(Bottom(s).store, Bottom(s).build, c)
  {
    match s
    case BasicService(_, _) =>
    case LoggingMiddleware(next) => InvokeTransparent(next, c, fx);
    case InstrumentingMiddleware(next, _) => InvokeTransparent(next, c, fx);
  }

  /** Each logging layer appends exactly one record per call and never
      rewrites what was logged before. */
  lemma {:induction false} LogCount(s: Service, c: Call, fx: Effects)
    ensures |Invoke(s, c, fx).1.logs| == |fx.logs| + LoggingDepth(s)
    ensures fx.logs <= Invoke(s, c, fx).1.logs
  {
    match s
    case BasicService(_, _) =>
    case LoggingMiddleware(next) => LogCount(next, c, fx);
    case InstrumentingMiddleware(next, _) => LogCount(next, c, fx);
  }

  /** A logging layer returns the inner result and adds one record, after the
      inner call, holding its label, the inputs and the outputs; no metric
      changes. */
  lemma LoggingOneRecord(next: Service, c: Call, fx: Effects)
    ensures var inner := Invoke(next, c, fx);
            var out := Invoke(LoggingMiddleware(next), c, fx);
            && out.0 == inner.0
            && out.1.logs == inner.1.logs + [LogRecord(LogLabel(c), c, inner.0)]
            && out.1.ints == inner.1.ints && out.1.chars == inner.1.chars
            && out.1.observations == inner.1.observations
  {
  }

  /** An instrumenting layer returns the inner result; Sum adds the returned
      value to `ints` (0 on error), Concat adds the byte length of the
      returned text to `chars`, Ping adds 1 to `chars` whatever the outcome,
      and each CRUD method makes exactly one observation labelled with whether
      it failed. Nothing is logged. */
  lemma InstrumentingCounters(next: Service, build: Build, c: Call, fx: Effects)
    ensures var inner := Invoke(next, c, fx);
            var out := Invoke(InstrumentingMiddleware(next, build), c, fx);
            && out.0 == inner.0
            && out.1.logs == inner.1.logs
            && (c.SumCall? ==> out.1.ints == inner.1.ints + inner.0.n.v && out.1.chars == inner.1.chars)
            && (c.ConcatCall? ==> out.1.chars == inner.1.chars + ByteLen(inner.0.s.v) && out.1.ints == inner.1.ints)
            && (c.PingCall? ==> out.1.chars == inner.1.chars + 1 && out.1.ints == inner.1.ints)
            && (!IsCrud(c) ==> out.1.observations == inner.1.observations)
            && (IsCrud(c) ==>
                  && out.1.ints == inner.1.ints && out.1.chars == inner.1.chars
                  && out.1.observations == inner.1.observations
                       + [Observation(ObservedAs(c, build).0, ObservedAs(c, build).1, ReplyErr(inner.0) != None)])
  {
  }

  /** The service New builds answers every call exactly as the basic service
      does, logs exactly one record for it, and updates the metrics of the
      instrumenting layer around that. A failed Sum adds nothing to `ints`. */
  lemma {:induction false} NewBehaviour(st: Store, build: Build, c: Call, fx: Effects)
    ensures var out := Invoke(New(st, build), c, fx);
            var r := Basic(st, build, c);
            && out.0 == r
            && out.1.logs == fx.logs + [LogRecord(LogLabel(c), c, r)]
            && (c.SumCall? ==> out.1.ints == fx.ints + (if r.n.err == None then SumOf(build, c.a, c.b).v else 0))
            && (c.ConcatCall? ==> out.1.chars == fx.chars + ByteLen(r.s.v))
            && (c.PingCall? ==> out.1.chars == fx.chars + 1)
            && (IsCrud(c) ==>
                  && |out.1.observations| == |fx.observations| + 1
                  && out.1.observations[|fx.observations|].failed == (ReplyErr(r) != None))
  {
    InvokeTransparent(New(st, build), c, fx);
    LoggingOneRecord(BasicService(st, build), c, fx);
    InstrumentingCounters(LoggingMiddleware(BasicService(st, build)), build, c, fx);
  }

  /** As written, GetAllToDo's observation is labelled as DeleteToDo's. */
  lemma GetAllObservedAsDelete()
    ensures ObservedAs(GetAllToDoCall, AsWritten) == (GetToDo, "DeleteToDo")
    ensures ObservedAs(GetAllToDoCall, AsWritten).1 != MethodName(GetAllToDoCall)
  {
  }

  /** Corrected, every CRUD observation carries its own method's name, so
      distinct methods are never merged under one label. */
  lemma CorrectedObservationLabels(c: Call, d: Call)
    requires IsCrud(c) && IsCrud(d)
    ensures ObservedAs(c, Corrected).1 == MethodName(c)
    ensures ObservedAs(c, Corrected).1 == ObservedAs(d, Corrected).1 ==> MethodName(c) == MethodName(d)
  {
  }
}

=== FILE: store.dfy ===
/** The persistence port the service core calls. The document-store
    implementation behind it is not part of this model: a `Store` is any
    total behaviour for the six port operations, each returning the Go
    result pair the port declares. */
module Store {
  import opened Models

  datatype Store = Store(
    ping: () -> Option<Error>,
    insertToDo: ToDoItem -> Ret<string>,
    completeToDo: string -> Ret<string>,
    unDoToDo: string -> Ret<string>,
    deleteToDo: string -> Ret<string>,
    getAllToDo: () -> Ret<seq<ToDoItem>>)
}
